=== FILE: README.md ===
# svgFx core in Dafny

A model of the attribute and style layer of svgFx, a library that turns SVG
documents into JavaFX scene graphs. Text goes in, typed values and resolved
styles come out. Results are then built element by element. The model covers:

- **Attribute values** (`AttributeValues`, `ValueTypes`). This is the
  `consumeText` state machine of `SVGAttributeType`:
  - the `inherit`/`none` flags;
  - the last consumed text;
  - a `null` parse result keeps the old value;
  - `equals` and `hashCode`.

  On top of it sit the fill-rule, stroke-linejoin, stroke-type and paint
  types. Paint has its `currentColor` sentinel.
- **The transform list** (`Transforms`). This is the left-to-right scan for
  `name(args)` calls, the per-function argument counts and argument layout,
  and the error raised for each malformed input. A composed transform is kept
  as the ordered list of its factors.
- **The element** (`Elements`). Constructing an `ElementBase` checks its
  arguments and builds the content map from the SAX attributes. The module
  also models `toString`.
- **The style cascade** (`SvgElement`). The three layers are:
  - presentation attributes;
  - the inline `style` attribute;
  - the class style, found by suffix.

  They are combined in that precedence order. Inheritance then applies along
  the parent chain, and the clip-path reference has its self-reference guard.
- **Result building** (`Results`, `Shapes`). This covers:
  - the shape elements' attribute extraction (rectangle, circle, ellipse,
    polygon/polyline points);
  - stops and linear gradients, including the `userSpaceOnUse` normalisation;
  - the group's filtering of child results;
  - `getStops` with and without `xlink:href`;
  - the failure wrapping of `createAndInitializeResult`;
  - the `getResult` memo.
- **Path commands** (`PathCommands`, `Geometry`). These are the end point and
  bounding box of close-path, line-to and vertical line-to (section 8.3 of
  SVG 1.1), plus the vertical line-to data grammar.

The document the elements see through their data provider is an arena
(`Documents.Doc`). It holds the elements, where a parent always precedes its
children, plus the registered CSS rules and the id table.

The helpers the core calls but whose code is not part of this model are fields
of `Environment.Env`. Every contract is stated relative to them:
- `Double.parseDouble`;
- `StringUtil.splitByDelimiters`;
- the CSS, colour and points parsers;
- the IRI parser;
- the table of presentation attributes.

Failures are values of `Failures.Error`. A Java exception becomes an `Err`
carrying the reason the source gives.

Where the code and its documentation or tests disagree, the model follows the
code:

- **Cascade precedence.** Presentation attributes take precedence over the
  inline `style` attribute. Section 6.4 of SVG 1.1 orders them the other way.
- **Single-value `translate`.** A `translate` with one value copies x into y.
  SVG 1.1 (section 7.6) uses 0 for y.
- **Trailing `)`.** Stripping a trailing `)` from transform arguments keeps
  the whole text (`substring(0, length())`). `Transforms.SplitCallsClosed`
  shows the scan never passes a `)` there anyway.
- **`xlink:href` stops.** A gradient with `xlink:href` takes the referenced
  gradient's stops even when it has stops of its own. Section 13.2.2 of
  SVG 1.1 uses them only when it has none.
- **Stroke-type default.** The default is `CENTERED`, as the constructor says.
  Its doc comment says `INSIDE`.
- **Circle centre.** A missing circle centre takes the length default, as
  `SVGCircle.createResult` does. `SVGCircleTest` expects a failure.
- **Unknown fill-rule text.** It falls back to `EVEN_ODD`, as
  `SVGAttributeTypeFillRule` does. Its integration test expects a rejection.

## Model

| member | source | states |
|---|---|---|
| `AttributeValues.Fresh` | src/main/java/de/saxsys/svgfx/core/content/SVGAttributeType.java:76-80 | a new value holds the default value, no unit, no consumed text, and neither flag |
| `AttributeValues.ConsumeText` | src/main/java/de/saxsys/svgfx/core/content/SVGAttributeType.java:135-149 | afterwards `isInherited` holds iff the text is `inherit`, and `isNone` iff it is `none`; the last consumed text is the text; for a keyword the parser is not asked and value and unit stay; otherwise a parsed pair replaces both, a `null` answer keeps both, and a parser failure is the error |
| `AttributeValues.LastTextDecides` | src/main/java/de/saxsys/svgfx/core/content/SVGAttributeType.java:137-139 | after a sequence of texts, the flags and the last consumed text depend only on the last text, so a keyword consumed earlier does not stick |
| `AttributeValues.ConsumeIdempotent` | src/main/java/de/saxsys/svgfx/core/content/SVGAttributeType.java:135-149 | consuming the same text a second time changes nothing |
| `AttributeValues.EqualHashesForEqualValues` | src/main/java/de/saxsys/svgfx/core/content/SVGAttributeType.java:158-161 | equal values have equal hashes, for any base hash of value and unit |
| `AttributeValues.KeywordHashesCollide` | src/main/java/de/saxsys/svgfx/core/content/SVGAttributeType.java:158-182 | because XOR is symmetric, an `inherit` value and a `none` value over the same base have equal hashes although they are not equal |
| `ValueTypes.LookupFillRule` | src/main/java/de/saxsys/svgfx/core/content/SVGAttributeTypeFillRule.java:53-65 | the result is the rule of the first mapping whose name equals the text exactly; with no such mapping it is the default |
| `ValueTypes.FillRuleValueAndUnit` | src/main/java/de/saxsys/svgfx/core/content/SVGContentTypeFillRule.java:59-71 | fill-rule parsing always answers a rule and never a unit, for both fill-rule types |
| `ValueTypes.FillRuleNames` | src/main/java/de/saxsys/svgfx/core/content/SVGAttributeTypeFillRule.java:33-65 | `nonzero` gives NON_ZERO, and any other text, including `evenodd` and differently cased names, gives EVEN_ODD |
| `ValueTypes.FillRuleNeverFails` | src/main/java/de/saxsys/svgfx/core/content/SVGAttributeTypeFillRule.java:53-65 | consuming any fill-rule text raises no error |
| `ValueTypes.JoinValueOf` | src/main/java/de/saxsys/svgfx/core/content/SVGAttributeTypeStrokeLineJoin.java:54 | `valueOf` answers the constant with exactly that name, and nothing for any other name |
| `ValueTypes.JoinValueAndUnit` | src/main/java/de/saxsys/svgfx/core/content/SVGAttributeTypeStrokeLineJoin.java:52-55 | the upper-cased text selects the constant of that name with no unit; a text naming none is rejected with a no-constant error; the answer is never `null` |
| `ValueTypes.JoinMatchIgnoresCase` | src/main/java/de/saxsys/svgfx/core/content/SVGAttributeTypeStrokeLineJoin.java:54 | every spelling whose upper case names a join, including its lower-case name, parses to that join |
| `ValueTypes.StrokeTypeValueOf` | src/main/java/de/saxsys/svgfx/core/css/SVGCssContentTypeStrokeType.java:47 | `valueOf` answers the constant with exactly that name, and nothing for any other name |
| `ValueTypes.StrokeTypeValueAndUnit` | src/main/java/de/saxsys/svgfx/core/css/SVGCssContentTypeStrokeType.java:46-48 | the upper-cased text selects the stroke type of that name with no unit; any other text is rejected with a no-constant error |
| `ValueTypes.StrokeTypeNames` | src/main/java/de/saxsys/svgfx/core/css/SVGCssContentTypeStrokeType.java:46-48 | the lower-case name of every stroke type parses to it, and a text naming none is rejected |
| `ValueTypes.FreshPaint` | src/main/java/de/saxsys/svgfx/core/css/SVGCssContentTypePaint.java:58-60 | a new paint is TRANSPARENT, has no unit, and is not the current colour |
| `ValueTypes.ConsumePaint` | src/main/java/de/saxsys/svgfx/core/css/SVGCssContentTypePaint.java:77-85 | whenever the parser runs, the flag holds iff the text is `currentColor`; `currentColor` keeps the old colour with no error; any other text takes the parsed colour with no unit, or is rejected naming the text |
| `ValueTypes.CurrentColorNotSticky` | src/main/java/de/saxsys/svgfx/core/css/SVGCssContentTypePaint.java:78 | `currentColor` followed by a colour leaves the flag cleared and the colour set |
| `Geometry.Span` | src/main/java/de/saxsys/svgfx/core/path/commands/CloseCommand.java:73-78 | the box spanned by two points has non-negative size, contains both points, and starts at one of them on each axis |
| `Geometry.SpanIsTight` | src/main/java/de/saxsys/svgfx/core/path/commands/CloseCommand.java:73-78 | every box containing both points contains their span, so the span is the smallest such box |
| `Geometry.SpanSymmetric` | src/main/java/de/saxsys/svgfx/core/path/commands/CloseCommand.java:73-78 | swapping the two points gives the same box |
| `PathCommands.RelativeName` | src/main/java/de/saxsys/svgfx/core/path/commands/CloseCommand.java:32-37 | the relative name is a lower-case letter different from the absolute name, whose upper case is the absolute name (`Z`/`z`, `L`/`l`, `V`/`v`) |
| `PathCommands.EndPoint` | src/test/java/de/saxsys/svgfx/core/path/commands/LineCommandTest.java:34-115 | close-path ends at its start point whatever the cursor; an absolute line ends at its operand; a relative line ends at cursor plus operand and fails without a cursor; a vertical line keeps x and adds its value to y |
| `PathCommands.BoundingBox` | src/main/java/de/saxsys/svgfx/core/path/commands/CloseCommand.java:73-78 | every command's box has non-negative size and contains both the cursor and the end point |
| `PathCommands.CloseGeometry` | src/main/java/de/saxsys/svgfx/core/path/commands/CloseCommand.java:67-78 | close-path's next position is the start point; its box starts at the componentwise minimum of cursor and start, and its size is the absolute differences |
| `PathCommands.LineBox` | src/test/java/de/saxsys/svgfx/core/path/commands/LineCommandTest.java:117-181 | a relative line's box is as large as the operand and starts at the smaller of cursor and end; an absolute line's box spans cursor to operand and may have zero width |
| `PathCommands.VerticalLineBox` | src/test/java/de/saxsys/svgfx/core/path/commands/VerticalLineCommandTest.java:124-155 | a vertical line's box has the cursor's x, zero width, the smaller y, and height equal to the absolute value |
| `PathCommands.ParseVerticalLine` | src/test/java/de/saxsys/svgfx/core/path/commands/VerticalLineCommandTest.java:46-98 | accepted data is always a vertical line |
| `PathCommands.DecimalRoundTrip` | src/test/java/de/saxsys/svgfx/core/path/commands/VerticalLineCommandTest.java:46-69 | the number lexer reads every written numeral (sign, digits, optional fraction) back as its value |
| `PathCommands.DecimalHasNoSpace` | src/test/java/de/saxsys/svgfx/core/path/commands/VerticalLineCommandTest.java:71-84 | a text the number lexer accepts holds no whitespace, so it cannot hold two numbers |
| `PathCommands.VerticalLineAccepts` | src/test/java/de/saxsys/svgfx/core/path/commands/VerticalLineCommandTest.java:46-69 | exactly one number, with an optional `V`/`v` letter and any whitespace around both, is accepted and gives that number |
| `PathCommands.VerticalLineRejectsTrailing` | src/test/java/de/saxsys/svgfx/core/path/commands/VerticalLineCommandTest.java:71-98 | any second token after the number (a second number, a trailing letter) is rejected |
| `PathCommands.VerticalLineRejectsMissingNumber` | src/test/java/de/saxsys/svgfx/core/path/commands/VerticalLineCommandTest.java:71-98 | data that is only whitespace and an optional letter is rejected |
| `PathCommands.VerticalLineRejectsOtherLetter` | src/test/java/de/saxsys/svgfx/core/path/commands/VerticalLineCommandTest.java:71-98 | a letter other than `V`/`v` in front of the number (such as `Z10`) is rejected |
| `PathCommands.VerticalLineAcceptsLetter` | src/test/java/de/saxsys/svgfx/core/path/commands/VerticalLineCommandTest.java:46-69 | `V10` gives a vertical line by 10 |
| `PathCommands.VerticalLineAcceptsPadded` | src/test/java/de/saxsys/svgfx/core/path/commands/VerticalLineCommandTest.java:46-69 | ` v 10 ` gives a vertical line by 10 |
| `PathCommands.VerticalLineAcceptsBare` | src/test/java/de/saxsys/svgfx/core/path/commands/VerticalLineCommandTest.java:46-69 | `10` gives a vertical line by 10 |
| `PathCommands.VerticalLineRejectsTwoNumbers` | src/test/java/de/saxsys/svgfx/core/path/commands/VerticalLineCommandTest.java:71-98 | `V 10 10` is rejected |
| `PathCommands.VerticalLineRejectsTwoNumbersUnspaced` | src/test/java/de/saxsys/svgfx/core/path/commands/VerticalLineCommandTest.java:71-98 | `V10 10` is rejected |
| `PathCommands.VerticalLineRejectsTrailingLetter` | src/test/java/de/saxsys/svgfx/core/path/commands/VerticalLineCommandTest.java:71-98 | `V10 Z` is rejected |
| `PathCommands.VerticalLineRejectsCloseLetter` | src/test/java/de/saxsys/svgfx/core/path/commands/VerticalLineCommandTest.java:71-98 | `Z10` is rejected |
| `PathCommands.VerticalLineRejectsLoneLetter` | src/test/java/de/saxsys/svgfx/core/path/commands/VerticalLineCommandTest.java:71-98 | `V` alone is rejected |
| `Elements.Construct` | src/main/java/de/saxsys/svgfx/xml/elements/ElementBase.java:84-119 | a null name is refused first, then a null data provider; a constructed element keeps its name and parent and has no children; null attributes give an empty content map |
| `Elements.ContentMapFailure` | src/main/java/de/saxsys/svgfx/xml/elements/ElementBase.java:96-114 | the attribute loop aborts iff some attribute's content type rejects its text, and then with the first such attribute, naming it and its text and keeping the cause |
| `Elements.ContentMapContents` | src/main/java/de/saxsys/svgfx/xml/elements/ElementBase.java:96-114 | without a rejection, the map holds exactly the names that have a content type, each with the content consumed from its last occurrence; unknown names are dropped |
| `Elements.ConstructAttributes` | src/main/java/de/saxsys/svgfx/xml/elements/ElementBase.java:84-119 | construction with a name, a data provider and attributes fails exactly at the first rejected attribute, and otherwise stores for each known name the content of its last occurrence and nothing else |
| `Elements.FirstFailure` | src/main/java/de/saxsys/svgfx/xml/elements/ElementBase.java:103-110 | the position found is a rejected attribute with none rejected before it, and with no position found none is rejected |
| `Elements.LastIndexOf` | src/main/java/de/saxsys/svgfx/xml/elements/ElementBase.java:111 | the position found carries the name and no later attribute does; with none found, no attribute carries it |
| `Elements.ToString` | src/main/java/de/saxsys/svgfx/xml/elements/ElementBase.java:213-224 | given a walk that lists every attribute exactly once, the text starts with `<` and the name and ends with `>`, and for an element without attributes it is exactly `<name>` |
| `Elements.ToStringShowsEvery` | src/main/java/de/saxsys/svgfx/xml/elements/ElementBase.java:217-219 | every attribute appears in the text as ` key:value`, right after `<name` and the entries walked before it |
| `Elements.ToStringAppend` | src/main/java/de/saxsys/svgfx/xml/elements/ElementBase.java:217-219 | adding a new attribute, walked last, keeps the walk complete and adds exactly ` key:value` in front of the closing `>` |
| `SvgElement.Merge` | src/test/java/de/saxsys/svgfx/core/elements/SVGElementBaseTest.java:132-204 | combining keeps every entry of the higher style and takes from the lower one only the keys the higher lacks |
| `SvgElement.DeclarationsEmpty` | src/main/java/de/saxsys/svgfx/core/elements/SVGElementBase.java:456-469 | the presentation declarations are empty iff no presentation attribute has text |
| `SvgElement.PresentationStyle` | src/main/java/de/saxsys/svgfx/core/elements/SVGElementBase.java:450-476 | there is no presentation style iff no presentation attribute has text |
| `SvgElement.Terminated` | src/main/java/de/saxsys/svgfx/core/elements/SVGElementBase.java:412-416 | the declaration text always ends with `;`, and a `;` is appended iff it was missing |
| `SvgElement.TerminatedIdempotent` | src/main/java/de/saxsys/svgfx/core/elements/SVGElementBase.java:415 | terminating twice is terminating once |
| `SvgElement.OwnStyle` | src/main/java/de/saxsys/svgfx/core/elements/SVGElementBase.java:402-419 | there is no own style iff the `style` attribute is missing or empty; otherwise it is the parsed rule `ownStyle{text;}`, with `;` added only when missing |
| `SvgElement.FindStyle` | src/main/java/de/saxsys/svgfx/core/elements/SVGElementBase.java:436 | the style found is the first registered one whose name ends with the reference, and finding none means none ends with it |
| `SvgElement.ReferencedStyle` | src/main/java/de/saxsys/svgfx/core/elements/SVGElementBase.java:428-440 | without a class there is no referenced style; otherwise the lookup fails, naming the reference, iff no registered name ends with it, and otherwise answers the first that does |
| `SvgElement.FirstLayer` | src/main/java/de/saxsys/svgfx/core/elements/SVGElementBase.java:364-395 | the first layer in precedence order that has the key supplies its value, and none does when the answer is empty |
| `SvgElement.LayeredPrecedence` | src/main/java/de/saxsys/svgfx/core/elements/SVGElementBase.java:364-395 | a key is in the combined style iff some layer has it, and its value comes from the presentation style if there, else the inline style, else the class style |
| `SvgElement.NoLayersEmpty` | src/main/java/de/saxsys/svgfx/core/elements/SVGElementBase.java:390-394 | with no layer the style is empty rather than absent |
| `SvgElement.CssStyle` | src/main/java/de/saxsys/svgfx/core/elements/SVGElementBase.java:364-395 | `getCssStyle` fails iff the class lookup fails; otherwise every entry, and every absence, is decided by the layers in precedence order |
| `SvgElement.Inherit` | src/test/java/de/saxsys/svgfx/core/elements/SVGElementBaseTest.java:211-298 | the resolved style has exactly the keys of the element's style and of the parent's |
| `SvgElement.ResolvedWithoutParent` | src/main/java/de/saxsys/svgfx/core/elements/SVGElementBase.java:326-334 | without a parent the resolved style is the element's own style |
| `SvgElement.Nearest` | src/test/java/de/saxsys/svgfx/core/elements/SVGElementBaseTest.java:342-385 | the element found lies on the chain from the element upwards and declares the key with a value other than `inherit` |
| `SvgElement.ResolvedInheritance` | src/test/java/de/saxsys/svgfx/core/elements/SVGElementBaseTest.java:211-298 | a key is in the resolved style iff some element on the parent chain declares it; its value is the nearest non-`inherit` declaration, and it stays `inherit` (the type's default) when there is none |
| `SvgElement.Transformation` | src/main/java/de/saxsys/svgfx/core/elements/SVGElementBase.java:484-490 | there is no transform without a non-empty `transform` attribute, and a transform returned is never empty |
| `SvgElement.TransformationOfCalls` | src/main/java/de/saxsys/svgfx/core/elements/SVGElementBase.java:484-490 | a `transform` attribute written as a list of calls gives those calls' transforms in order, or the first failing call's error |
| `SvgElement.ResolveClipPath` | src/main/java/de/saxsys/svgfx/core/elements/SVGElementBase.java:543-546 | the resolver answers null exactly when the IRI parser finds no id; a found element is the clip path the id names; an id naming no clip path fails naming the reference |
| `SvgElement.ClipPath` | src/main/java/de/saxsys/svgfx/core/elements/SVGElementBase.java:538-551 | there is no clip path unless the `clip-path` entry holds a reference (not empty, not `none`, not `inherit`); a reference to a missing clip path fails naming it; a clip path returned is the one the reference names and is never the element itself |
| `SvgElement.KeywordClipIgnored` | src/main/java/de/saxsys/svgfx/core/content/SVGAttributeType.java:137-141 | a `clip-path` of `none` or `inherit` is never parsed as a reference, so the element has no clip path |
| `SvgElement.SelfClipIgnored` | src/test/java/de/saxsys/svgfx/core/elements/SVGElementBaseTest.java:528-555 | a clip path that refers to the element itself is ignored |
| `Shapes.CreateRectangle` | src/main/java/de/saxsys/svgfx/core/elements/SVGRectangle.java:55-65 | `x` and `y` are 0 when missing or empty; `width` and `height` are required and parsed; a missing `width` fails; a new rectangle has no arcs |
| `Shapes.ApplyArcs` | src/main/java/de/saxsys/svgfx/core/elements/SVGRectangle.java:72-84 | a present `rx` makes the arc width twice its value and a present `ry` the arc height twice its value; an absent radius leaves its arc alone; nothing else changes; a radius that is no number fails |
| `Shapes.CreateCircle` | src/main/java/de/saxsys/svgfx/core/elements/SVGCircle.java:60-65 | a missing centre coordinate takes the length default; present values pass through to centre and radius; a missing `r` fails |
| `Shapes.CreateEllipse` | src/main/java/de/saxsys/svgfx/core/elements/SVGEllipse.java:58-64 | a missing centre coordinate takes the length default; present values pass through; a missing `rx` or `ry` fails |
| `Shapes.Flatten` | src/main/java/de/saxsys/svgfx/core/elements/SVGPolyBase.java:80-91 | the list is twice as long as the points; element 2i is the x of point i and element 2i+1 its y |
| `Shapes.FlattenPair` | src/main/java/de/saxsys/svgfx/core/elements/SVGPolyBase.java:84-88 | flattening loses nothing: pairing the list up again gives the points back |
| `Shapes.FlattenAppend` | src/main/java/de/saxsys/svgfx/core/elements/SVGPolyBase.java:84-88 | flattening keeps the points' order: it distributes over concatenation |
| `Shapes.GetPoints` | src/main/java/de/saxsys/svgfx/core/elements/SVGPolyBase.java:80-91 | without `points` the list is empty; with parsable points it pairs back into exactly those points; unparsable points fail |
| `Shapes.CreateStop` | src/test/java/de/saxsys/svgfx/core/elements/SVGStopTest.java:37-132 | a missing offset fails; the offset is the parsed `offset`; the colour is the parsed stop colour with `stop-opacity` as its alpha; an invalid colour or opacity fails |
| `Shapes.StopColorWins` | src/test/java/de/saxsys/svgfx/core/elements/SVGStopTest.java:61-79 | with `stop-color` present, the `color` attribute does not change the stop, whatever it holds |
| `Shapes.Units` | src/test/java/de/saxsys/svgfx/core/elements/SVGLinearGradientTest.java:56-105 | the default units are the object bounding box, and `userSpaceOnUse` selects user space |
| `Shapes.Spread` | src/test/java/de/saxsys/svgfx/core/elements/SVGLinearGradientTest.java:56-105 | the default spread is NO_CYCLE, `repeat` gives REPEAT and `reflect` gives REFLECT |
| `Shapes.Fraction` | src/test/java/de/saxsys/svgfx/core/elements/SVGLinearGradientTest.java:178-235 | the fraction locates the value on the axis: min plus fraction times extent is the value |
| `Shapes.FractionEnds` | src/test/java/de/saxsys/svgfx/core/elements/SVGLinearGradientTest.java:178-235 | the two ends of the axis map to 0 and 1 |
| `Shapes.CreateLinearGradient` | src/test/java/de/saxsys/svgfx/core/elements/SVGLinearGradientTest.java:56-235 | user space without a shape fails with MISSING_ELEMENT; no stops fails with MISSING_STOPS; otherwise the stops and spread are kept, coordinates pass through in bounding-box units, and in user space each is placed relative to the shape's box |
| `Shapes.Place` | src/test/java/de/saxsys/svgfx/core/elements/SVGLinearGradientTest.java:178-235 | each coordinate becomes its fraction of the box on its axis, stops and spread unchanged; a box of zero extent is an error |
| `Results.FilterNodes` | src/main/java/de/saxsys/svgfx/core/elements/Group.java:42-54 | the group keeps only child results that are nodes, and every node among them |
| `Results.FilterNodesAppend` | src/main/java/de/saxsys/svgfx/core/elements/Group.java:42-54 | filtering keeps the children's order: it distributes over concatenation |
| `Results.FilterNodesSingle` | src/main/java/de/saxsys/svgfx/core/elements/Group.java:47-49 | a single result is kept exactly when it is a node |
| `Results.StopsOfAppend` | src/main/java/de/saxsys/svgfx/core/elements/SVGGradientBase.java:84-90 | the stops of a child list are the stops of its parts, in order |
| `Results.StopsOfSingle` | src/main/java/de/saxsys/svgfx/core/elements/SVGGradientBase.java:85-89 | a child that is not a stop contributes nothing; a stop child contributes its result or aborts with its failure |
| `Results.ReferencedGradient` | src/main/java/de/saxsys/svgfx/core/elements/SVGGradientBase.java:74-80 | the reference names a linear gradient exactly when its text without the first `#` is the id of one |
| `Results.GetStops` | src/main/java/de/saxsys/svgfx/core/elements/SVGGradientBase.java:68-93 | with an `xlink:href` that names a linear gradient the stops are that gradient's children's stops; one that names none fails naming the reference; without `xlink:href` the stops are those of the element's own children |
| `Results.SameReferenceSameStops` | src/main/java/de/saxsys/svgfx/core/elements/SVGGradientBase.java:72-83 | with an `xlink:href` the element's own children do not matter: two gradients with the same reference get the same stops |
| `Results.ReferenceSharesStops` | src/main/java/de/saxsys/svgfx/core/elements/SVGGradientBase.java:72-83 | a gradient referring to a gradient that has no reference of its own gets exactly that gradient's stops |
| `Results.FirstFailingChild` | src/main/java/de/saxsys/svgfx/core/elements/Group.java:42-54 | a failing child found is one of the children |
| `Results.FirstFailingChildFound` | src/main/java/de/saxsys/svgfx/core/elements/Group.java:42-54 | the child found fails and all before it succeed; finding none means every child succeeds |
| `Results.CollectFailure` | src/main/java/de/saxsys/svgfx/core/elements/Group.java:50-52 | collecting the children fails iff some child fails, and then with the first failing child's error wrapped |
| `Results.CollectValues` | src/main/java/de/saxsys/svgfx/core/elements/Group.java:42-49 | when collecting succeeds, it holds every child's result, in order |
| `Results.CollectResults` | src/main/java/de/saxsys/svgfx/core/elements/Group.java:42-54 | collecting fails exactly at the first failing child, wrapping its error, and otherwise answers each child's result in order |
| `Results.GroupResult` | src/main/java/de/saxsys/svgfx/core/elements/Group.java:37-56 | a group with a resolved style is a group of opacity 1.0 holding the children's node results in order, or fails with its first failing child's error, wrapped as a child failure and then as the group's creation failure |
| `Results.StyleFailureUnwrapped` | src/main/java/de/saxsys/svgfx/core/elements/SVGElementBase.java:583-586 | a style that fails to resolve fails the build before the wrapped creation step, so its error is not wrapped |
| `Results.BuildStopAgrees` | src/main/java/de/saxsys/svgfx/core/elements/SVGGradientBase.java:82-88 | building a stop element as a child gives exactly the stop `getStops` collects |
| `Results.ClipPathResult` | src/main/java/de/saxsys/svgfx/core/elements/SVGElementBase.java:499-551 | no clip path gives no result; a clip result is the built result of some other element the reference names |
| `Results.GetResult` | src/main/java/de/saxsys/svgfx/core/elements/SVGElementBase.java:619-626 | a stored result is returned unchanged without building; otherwise only a successful non-null result is stored |
| `Results.GetResultConsistent` | src/main/java/de/saxsys/svgfx/core/elements/SVGElementBase.java:619-626 | with a memo holding only built results, `getResult` answers what building answers and the memo stays consistent |
| `Results.GetResultStable` | src/main/java/de/saxsys/svgfx/core/elements/SVGElementBase.java:619-626 | once a non-null result is returned, asking again returns the same result and leaves the memo as it is |
| `Transforms.NamesPrefixFree` | src/main/java/de/saxsys/svgfx/core/attributes/type/SVGAttributeTypeTransform.java:99-105 | no two function names can both start at the same position, so the order in which the names are tried does not matter |
| `Transforms.FirstMatchFound` | src/main/java/de/saxsys/svgfx/core/attributes/type/SVGAttributeTypeTransform.java:104-105 | a name is found at a position iff some function name starts there, and the one found does |
| `Transforms.ParseFunction` | src/main/java/de/saxsys/svgfx/core/attributes/type/SVGAttributeTypeTransform.java:142-252 | empty argument text fails with NULL_ARGUMENT; a lone `(` fails with an index error; a count of values the function does not take fails with INVALID_MATRIX_NUMBER_OF_ELEMENTS_DOES_NOT_MATCH naming the function and the count |
| `Transforms.ParseFunctionValues` | src/main/java/de/saxsys/svgfx/core/attributes/type/SVGAttributeTypeTransform.java:176-266 | with a fitting count, the function is the transform its numbers denote, or fails with INVALID_NUMBER_FORMAT for one of its values |
| `Transforms.SourceOrder` | src/main/java/de/saxsys/svgfx/core/attributes/type/SVGAttributeTypeTransform.java:186-236 | the order in which values are parsed visits only existing positions |
| `Transforms.SourcePosition` | src/main/java/de/saxsys/svgfx/core/attributes/type/SVGAttributeTypeTransform.java:186-236 | the parse order visits every value |
| `Transforms.NumbersInOrder` | src/main/java/de/saxsys/svgfx/core/attributes/type/SVGAttributeTypeTransform.java:186-191 | a successful parse answers one number per value |
| `Transforms.NumbersInOrderOk` | src/main/java/de/saxsys/svgfx/core/attributes/type/SVGAttributeTypeTransform.java:186-191 | a successful parse holds, at every position it visited, that value's number |
| `Transforms.NumbersInOrderFails` | src/main/java/de/saxsys/svgfx/core/attributes/type/SVGAttributeTypeTransform.java:192-194 | a failed parse names a value that is not a number |
| `Transforms.NumbersInOrderAll` | src/main/java/de/saxsys/svgfx/core/attributes/type/SVGAttributeTypeTransform.java:186-236 | when the parse order covers every value, success means all values are numbers and the answer is exactly their numbers |
| `Transforms.Next` | src/main/java/de/saxsys/svgfx/core/attributes/type/SVGAttributeTypeTransform.java:105-111 | after a call the scan resumes strictly later, within the text |
| `Transforms.GetTransform` | src/main/java/de/saxsys/svgfx/core/attributes/type/SVGAttributeTypeTransform.java:92-125 | empty text gives no transform; a transform returned is never empty; success means no function name was left without its `)` |
| `Transforms.ParseCallsElementwise` | src/main/java/de/saxsys/svgfx/core/attributes/type/SVGAttributeTypeTransform.java:102-122 | the parsed calls line up one to one with the calls, in order, and a failure is some call's failure |
| `Transforms.SplitCallsClosed` | src/main/java/de/saxsys/svgfx/core/attributes/type/SVGAttributeTypeTransform.java:108-111 | no argument text the scan extracts holds a `)`, which is why the trailing-`)` strip never has anything to strip |
| `Transforms.NextClosed` | src/main/java/de/saxsys/svgfx/core/attributes/type/SVGAttributeTypeTransform.java:108-111 | the arguments of a call end at the first `)` |
| `Transforms.NoFunctionNoCalls` | src/main/java/de/saxsys/svgfx/core/attributes/type/SVGAttributeTypeTransform.java:102-122 | a text in which no function name starts holds no calls |
| `Transforms.NoFunctionGivesNull` | src/main/java/de/saxsys/svgfx/core/attributes/type/SVGAttributeTypeTransform.java:97-124 | a text that names no transform function gives no transform and no error |
| `Transforms.SplitRendered` | src/main/java/de/saxsys/svgfx/core/attributes/type/SVGAttributeTypeTransform.java:102-122 | scanning calls written one after another gives back exactly those calls |
| `Transforms.SplitRenderedFrom` | src/main/java/de/saxsys/svgfx/core/attributes/type/SVGAttributeTypeTransform.java:102-122 | scanning the written calls from any position continues the calls found so far with exactly those calls |
| `Transforms.RenderedTransform` | src/main/java/de/saxsys/svgfx/core/attributes/type/SVGAttributeTypeTransform.java:102-122 | a transform list written as calls denotes its calls' transforms in document order, or the first failing call's error |
| `Transforms.UnclosedFails` | src/main/java/de/saxsys/svgfx/core/attributes/type/SVGAttributeTypeTransform.java:108-111 | a function name with no `)` after it fails the whole attribute once the calls before it have parsed |

## Left out

- **Radial gradients.** The focus computation uses `hypot`/`atan2` floating-point maths, and its test is unfinished.
- **I/O and SAX plumbing.** Reading files, the SAX parser and the element factory are left out. The document is given as an already built arena with an id table and the registered styles.
- **Floating point.** Numbers are `real`s. `Double.parseDouble`, `StringUtil.splitByDelimiters`, the CSS parser (`parseCssText`), the colour parser, the points parser, the IRI parser and the presentation-attribute table are `Env` parameters, because their code is not part of this model. `createContentType` is the `ContentTypes` parameter of `Elements`.
- **The base classes of the value types.** `SVGCssContentTypeBase` and `SVGContentTypeBase` are not part of this model. Paint and stroke type are assumed to consume text as `SVGAttributeType` does.
- **Transform composition.** A composed transform is the list of its factors in document order, not a matrix product. `rotate`'s angle is kept as given.
- **Combining styles.** `combineWithStyle` and `combineStylesAndResolveInheritance` are not part of this model. Their behaviour is the one `SVGElementBaseTest` pins down: a left-biased merge, and inheritance of `inherit` entries from the nearest ancestor. An `inherit` that no ancestor resolves stands for the type's default value.
- **Aliasing.** When only a class style is present, `getCssStyle` returns the registry's own object, and inheritance later mutates it. The functional model has no such sharing, so that mutation is not modelled.
- **Memo sharing.** Each element has its own `result` field. The model keeps one memo map and builds children without consulting it. `Results.GetResultConsistent` shows the answers are the same.
- **Clip paths.** `getClipPath` answers the clip path element's index, and `Results.ClipPathResult` builds it. `getResult(style)`, the overload taking a style, is not modelled separately. `SVGClipPath` is not part of this model: its result is assumed to be built as a `Group`'s is, a group of opacity 1.0 holding its children's node results, and `Results.ClipPathResult` rests on that assumption.
- **`toString` entry order.** A `HashMap` iterates its entries in no promised order, so the order is a parameter of `Elements.ToString`.
- **Thin wrappers.** SVGPath (its bounding box is unimplemented), SVGRoot, SVGPolygon and SVGPolyline (beyond `getPoints`), the older `Circle` class and the quadratic Bézier command have no logic of their own to model.
- **Attribute name tables.** `CoreAttributeMapper` and `BaseAttributeMapper` are left out. Attribute names appear as their SVG spellings.
- **Points and inline styles.** `SVGContentTypePoints` and `SVGContentTypeStyle` are left out, because their grammar lives in helpers whose code is not part of this model.
- **Vertical line letter.** The vertical line-to command is modelled as relative. The data grammar accepts `V` and `v` alike, and the tests fix only the relative behaviour.
- **Failure messages.** A creation failure carries the element's class and its element name. The source's message carries the element's whole `toString()` text (`<name key:value ...>`) instead, which `Elements.ToString` models on its own.
- **Assumed constants.** The length default is taken as 0. The stop colour defaults to black (section 13.2.4 of SVG 1.1). The fill-rule name table is assumed to list `nonzero` before `evenodd`. The linear gradient's endpoints default to x1 = 0, y1 = 0, x2 = 1, y2 = 0 (section 13.2.2 of SVG 1.1), `gradientUnits` is matched against the spelling `userSpaceOnUse`, and `spreadMethod` against `reflect` and `repeat`. The string type's default value is taken as empty. `Constants` is not part of this model: the declaration block is taken to open with `{` and close with `}`, and a declaration to end with `;`, so the presentation attributes are parsed as the rule `presentationStyle{...}` and the inline style as `ownStyle{...;}`. The transform parser scans for the names of `Enumerations.Matrix` without `NONE`; `Transforms.Name` takes them from the `Matrix` enum of `SVGElementBase` (src/main/java/de/saxsys/svgfx/core/elements/SVGElementBase.java:228-240), which spells them `matrix`, `translate`, `scale`, `rotate`, `skewX` and `skewY`, as section 7.6 of SVG 1.1 does. `Enumerations` is not part of this model.
- **Parse time.** `Documents.Node` keeps the raw attribute texts, and they are parsed when a result is built. `ElementBase` parses them when it is constructed, so a malformed attribute that makes construction throw (as `SVGStopTest` expects) makes the build fail here instead.
- **Two element models.** `Elements` models the constructor and `toString` of `ElementBase`. `Documents` is the arena the style and result modules work on. The two are separate: no lemma connects an `Elements.Element` to the `Documents.Node` built from it.
- **Base initialisation.** `SVGShapeBase` is not part of this model, so neither is its `initializeResult`, which the rectangle, circle, ellipse and polygon call first through `super`. `Results.Create` builds each shape from its own attributes only, without whatever styling that base step applies. `SVGNodeBase`, the base class of `Group`, is not part of this model either: a group's `createResult(style)` and `initializeResult` are that class's, and the step that applies a style or transformation to the group is not modelled. A group (and a clip path, built the same way) is taken to be exactly the group of its children's node results with opacity 1.0 that `Group.createResultInternal` builds.
- Shapes.Place: where the source divides by a zero extent (giving infinities or NaN), the model answers an error instead, because `real` has no such values.
- Shapes.CreateStop: the colour's alpha is stated only when `stop-opacity` is present; without it, the alpha is the one the colour parser gives.
- Shapes.CreateStop: `SVGStop` is not part of this model and is reconstructed from `SVGStopTest`. The stop reads `stop-color`, `color` and `stop-opacity` from its own attribute texts, not from the resolved style, so a colour given by an inline `style`, a class rule or `inherit` is not seen here.
- Shapes.CreateLinearGradient: `SVGLinearGradient` is not part of this model and is reconstructed from `SVGLinearGradientTest` and `SVGGradientBase`; it too reads its own attribute texts.
- Shapes.CreateCircle: the centre and radius are read with the number parser, not the length type, so a length with a unit suffix (such as `5px`) is rejected here and accepted by `SVGAttributeTypeLength`.
- Shapes.CreateEllipse: the centre and radii are read as plain numbers, as for `Shapes.CreateCircle`.
- Results.GroupResult: states the group as `Group.createResultInternal` builds it; whatever `SVGNodeBase`'s creation and initialisation step then changes on it (style, transformation) is not modelled, see "Base initialisation" above.
- Results.ClipPathResult: the clip path's result is the assumed `Group`-like build of `SVGClipPath` (see "Clip paths" above), not a behaviour shown by the source.
- Results.FirstFailingChild: its own contract states only that the position is in range; `Results.FirstFailingChildFound` states the rest.
- ValueTypes.JoinValueAndUnit: upper-casing is ASCII only; Java's locale-dependent `toUpperCase` also maps letters such as `ı` to `I` and `ſ` to `S`, so such spellings are accepted there and rejected here.
- ValueTypes.JoinMatchIgnoresCase: states the match for ASCII case differences only, for the same reason.
- ValueTypes.StrokeTypeValueAndUnit: upper-casing is ASCII only, as for `ValueTypes.JoinValueAndUnit`.
- ValueTypes.StrokeTypeNames: the names are matched with ASCII upper-casing only, as for `ValueTypes.JoinValueAndUnit`.
- SvgElement.Transformation: `SVGUtils.getTransform` is not part of this model; the transform text is read by the transform type's parser (`Transforms.GetTransform`), which the helper is assumed to use.
- SvgElement.ResolveClipPath: encodes the assumed null/throw split of `SVGUtils.resolveIRI` described on the `SvgElement.ClipPath` line below.
- SvgElement.ClipPath: `SVGUtils.resolveIRI` is not part of this model; it is assumed to answer null for a text the IRI parser finds no id in and to throw for an id that names no clip path, the split `SVGElementBaseTest` pins down for a missing `url(#id)`.
- PathCommands.ParseVerticalLine: the numeral grammar is an optional sign, digits and an optional fraction with digits on both sides; `Double.parseDouble` also accepts forms such as `.5`, `5.` and `1e3`, which are rejected here.

=== FILE: attribute_value.dfy ===
/** The attribute-value state machine of `SVGAttributeType`: every typed attribute
    keeps a value, a unit, the last text it consumed and two flags for the
    `inherit` and `none` keywords. */
module AttributeValues {
  import opened Wrappers
  import opened Failures

  const InheritIndicator: string := "inherit"
  const NoneIndicator: string := "none"

  /** What a type-specific `getValueAndUnit` answers: a (value, unit) pair,
      `null`, or an exception. */
  datatype Parsed<V, U> = Parsed(value: V, unit: Option<U>) | NoData | ParseFailed(error: Error)

  /** The unit of types declared with `Void` as unit type: always `null`. */
  datatype NoUnit = NoUnit

  datatype AttrValue<V, U> = AttrValue(
    value: V,
    unit: Option<U>,
    lastConsumedText: Option<string>,
    isInherited: bool,
    isNone: bool)

  /** A freshly constructed attribute type: the default value, no unit, no text, no flag. */
  function Fresh<V, U>(defaultValue: V): (a: AttrValue<V, U>)
    ensures a.value == defaultValue && a.unit == None && a.lastConsumedText == None
    ensures !a.isInherited && !a.isNone
  {
    AttrValue(defaultValue, None, None, false, false)
  }

  /** The state after `consumeText` together with the exception it threw, if any. */
  datatype Consumed<V, U> = Consumed(state: AttrValue<V, U>, error: Option<Error>)

  /** `consumeText(text)`: both flags and the last text are set before the parser
      runs; the parser only runs for a text that is neither keyword, and a `null`
      answer keeps the old value and unit. */
  function ConsumeText<V, U>(a: AttrValue<V, U>, text: string, parse: string -> Parsed<V, U>): (r: Consumed<V, U>)
    ensures r.state.isInherited <==> text == InheritIndicator
    ensures r.state.isNone <==> text == NoneIndicator
    ensures r.state.lastConsumedText == Some(text)
    ensures text == InheritIndicator || text == NoneIndicator ==>
              r.state.value == a.value && r.state.unit == a.unit && r.error == None
    ensures text != InheritIndicator && text != NoneIndicator ==>
              match parse(text)
              case Parsed(v, u) => r.state.value == v && r.state.unit == u && r.error == None
              case NoData => r.state.value == a.value && r.state.unit == a.unit && r.error == None
              case ParseFailed(e) => r.error == Some(e)
  {
    var isInherited := text == InheritIndicator;
    var isNone := text == NoneIndicator;
    var flagged := a.(lastConsumedText := Some(text), isInherited := isInherited, isNone := isNone);
    if isInherited || isNone then
      Consumed(flagged, None)
    else
      match parse(text)
      case Parsed(v, u) => Consumed(flagged.(value := v, unit := u), None)
      case NoData => Consumed(flagged, None)
      case ParseFailed(e) => Consumed(flagged, Some(e))
  }

  /** Consuming a sequence of texts one after the other, stopping at the first exception. */
  function ConsumeAll<V, U>(a: AttrValue<V, U>, texts: seq<string>, parse: string -> Parsed<V, U>): Consumed<V, U>
    decreases |texts|
  {
    if texts == [] then Consumed(a, None)
    else
      var c := ConsumeText(a, texts[0], parse);
      if c.error.Some? then c else ConsumeAll(c.state, texts[1..], parse)
  }

  /** Flags are not sticky: after any run of successful consumptions the flags and the
      last text depend on the final text alone. */
  lemma {:induction false} LastTextDecides<V, U>(a: AttrValue<V, U>, texts: seq<string>, parse: string -> Parsed<V, U>)
    requires texts != []
    ensures var c := ConsumeAll(a, texts, parse);
            c.error == None ==>
              && c.state.lastConsumedText == Some(texts[|texts| - 1])
              && (c.state.isInherited <==> texts[|texts| - 1] == InheritIndicator)
              && (c.state.isNone <==> texts[|texts| - 1] == NoneIndicator)
    decreases |texts|
  {
    var c := ConsumeText(a, texts[0], parse);
    if c.error.None? && |texts| > 1 {
      LastTextDecides(c.state, texts[1..], parse);
      assert texts[1..][|texts[1..]| - 1] == texts[|texts| - 1];
    }
  }

  /** Consuming the same text twice has the same effect as consuming it once. */
  lemma ConsumeIdempotent<V, U>(a: AttrValue<V, U>, text: string, parse: string -> Parsed<V, U>)
    requires ConsumeText(a, text, parse).error == None
    ensures var s := ConsumeText(a, text, parse).state;
            ConsumeText(s, text, parse) == Consumed(s, None)
  {
  }

  /** `equals`: the base comparison of value and unit, and in addition both flags. */
  predicate Equal<V(==), U(==)>(a: AttrValue<V, U>, b: AttrValue<V, U>) {
    a.value == b.value && a.unit == b.unit && a.isNone == b.isNone && a.isInherited == b.isInherited
  }

  /** `Boolean.hashCode`. */
  function BooleanHash(b: bool): bv32 {
    if b then 1231 else 1237
  }

  /** `hashCode`: the XOR of both flag hashes and the base hash of value and unit. */
  function Hash<V, U>(a: AttrValue<V, U>, baseHash: (V, Option<U>) -> bv32): bv32 {
    BooleanHash(a.isNone) ^ BooleanHash(a.isInherited) ^ baseHash(a.value, a.unit)
  }

  /** Equal values have equal hashes, for every base hash computed from value and unit. */
  lemma EqualHashesForEqualValues<V, U>(a: AttrValue<V, U>, b: AttrValue<V, U>, baseHash: (V, Option<U>) -> bv32)
    requires Equal(a, b)
    ensures Hash(a, baseHash) == Hash(b, baseHash)
  {
  }

  /** XOR is symmetric, so an `inherit` value and a `none` value with the same base
      collide although they are not equal. */
  lemma KeywordHashesCollide<V, U>(a: AttrValue<V, U>, baseHash: (V, Option<U>) -> bv32)
    ensures var i := a.(isInherited := true, isNone := false);
            var n := a.(isInherited := false, isNone := true);
            Hash(i, baseHash) == Hash(n, baseHash) && !Equal(i, n)
  {
  }
}

=== FILE: document.dfy ===
/** The parsed SVG document as the elements see it through their data
    provider: an arena of elements (the SAX tree), the registered CSS styles and
    the id table. A parent always precedes its children, because SAX starts a
    parent before any of its children. */
module Documents {
  import opened Wrappers
  import opened Environment

  /** The element classes the core distinguishes. */
  datatype Kind =
    | GroupKind
    | RectangleKind
    | CircleKind
    | EllipseKind
    | PolygonKind
    | PolylineKind
    | StopKind
    | LinearGradientKind
    | ClipPathKind
    | OtherKind

  /** The fully qualified Java class name (`getClass().getName()`) that
      failure messages carry. */
  function ClassName(k: Kind): string {
    ElementsPackage + ShortClassName(k)
  }

  /** The package every element class of the core lives in. */
  const ElementsPackage: string := "de.saxsys.svgfx.core.elements."

  function ShortClassName(k: Kind): string {
    match k
    case GroupKind => "Group"
    case RectangleKind => "SVGRectangle"
    case CircleKind => "SVGCircle"
    case EllipseKind => "SVGEllipse"
    case PolygonKind => "SVGPolygon"
    case PolylineKind => "SVGPolyline"
    case StopKind => "SVGStop"
    case LinearGradientKind => "SVGLinearGradient"
    case ClipPathKind => "SVGClipPath"
    case OtherKind => "SVGElementBase"
  }

  /** One element: its name, its attribute texts keyed by name, its parent and
      its children, as arena indices. */
  datatype Node = Node(name: string, kind: Kind, attributes: map<string, string>, parent: Option<nat>, children: seq<nat>)

  /** A registered CSS rule: its selector name and its declarations. */
  datatype NamedStyle = NamedStyle(name: string, style: Style)

  datatype Doc = Doc(nodes: seq<Node>, styles: seq<NamedStyle>, ids: map<string, nat>)

  predicate WellFormed(d: Doc) {
    && (forall i :: 0 <= i < |d.nodes| && d.nodes[i].parent.Some? ==> d.nodes[i].parent.value < i)
    && (forall i, j :: 0 <= i < |d.nodes| && 0 <= j < |d.nodes[i].children| ==>
          i < d.nodes[i].children[j] < |d.nodes|)
    && (forall id :: id in d.ids ==> d.ids[id] < |d.nodes|)
  }

  /** `getAttribute(name)`: the text of the attribute, `None` where it is null. */
  function Attribute(n: Node, name: string): Option<string> {
    if name in n.attributes then Some(n.attributes[name]) else None
  }

  /** `StringUtils.isNotNullOrEmpty(getAttribute(name))`. */
  predicate HasText(n: Node, name: string) {
    name in n.attributes && n.attributes[name] != ""
  }
}

=== FILE: element_base.dfy ===
/** The generic element of the SAX tree (`ElementBase`): construction checks
    its arguments and turns the XML attributes into typed content, keyed by
    attribute name. */
module Elements {
  import opened Wrappers
  import opened Failures

  /** One entry of the SAX `Attributes` list: qualified name and text. */
  datatype XmlAttribute = XmlAttribute(name: string, value: string)

  /** What `createContentType(name)` followed by `consumeText(value)` does for
      one attribute: `None` when the element knows no content type for the
      name, otherwise the consumed content or the exception `consumeText` threw. */
  type ContentTypes<C> = string -> Option<string -> Result<C, Error>>

  /** A constructed element. Parent and children are arena indices. */
  datatype Element<C> = Element(
    name: string,
    attributes: map<string, C>,
    parent: Option<nat>,
    children: seq<nat>)

  /** The attribute `a` has a content type whose `consumeText` throws. */
  predicate Fails<C>(contentTypes: ContentTypes<C>, a: XmlAttribute) {
    contentTypes(a.name).Some? && contentTypes(a.name).value(a.value).Err?
  }

  /** The position of the first attribute whose consumption throws, if any. */
  function FirstFailure<C>(attributes: seq<XmlAttribute>, contentTypes: ContentTypes<C>): (r: Option<nat>)
    ensures r.Some? ==> r.value < |attributes| && Fails(contentTypes, attributes[r.value])
    ensures r.Some? ==> forall j :: 0 <= j < r.value ==> !Fails(contentTypes, attributes[j])
    ensures r.None? ==> forall j :: 0 <= j < |attributes| ==> !Fails(contentTypes, attributes[j])
  {
    if attributes == [] then None
    else if Fails(contentTypes, attributes[0]) then Some(0)
    else match FirstFailure(attributes[1..], contentTypes)
      case None => None
      case Some(i) => Some(i + 1)
  }

  /** The position of the last attribute called `key`, if any. */
  function LastIndexOf(attributes: seq<XmlAttribute>, key: string): (r: Option<nat>)
    ensures r.Some? ==> r.value < |attributes| && attributes[r.value].name == key
    ensures r.Some? ==> forall j :: r.value < j < |attributes| ==> attributes[j].name != key
    ensures r.None? ==> forall j :: 0 <= j < |attributes| ==> attributes[j].name != key
  {
    if attributes == [] then None
    else match LastIndexOf(attributes[1..], key)
      case Some(j) => Some(j + 1)
      case None => if attributes[0].name == key then Some(0) else None
  }

  /** The loop of the constructor over the attributes, in list order, storing
      into `acc`; `contentMap.put` overwrites an earlier entry of the same name. */
  function ContentMap<C>(attributes: seq<XmlAttribute>, contentTypes: ContentTypes<C>, acc: map<string, C>): Result<map<string, C>, Error>
  {
    if attributes == [] then Ok(acc)
    else
      var a := attributes[0];
      match contentTypes(a.name)
      case None => ContentMap(attributes[1..], contentTypes, acc)
      case Some(consume) =>
        match consume(a.value)
        case Err(e) => Err(InvalidAttribute(a.name, a.value, e))
        case Ok(content) => ContentMap(attributes[1..], contentTypes, acc[a.name := content])
  }

  /** The constructor: a null name is refused first, then a null data
      provider, then the first attribute whose text its content type rejects. */
  function Construct<C>(name: Option<string>, attributes: Option<seq<XmlAttribute>>, parent: Option<nat>,
                        hasDataProvider: bool, contentTypes: ContentTypes<C>): (r: Result<Element<C>, Error>)
    ensures name.None? ==> r == Err(NullName)
    ensures name.Some? && !hasDataProvider ==> r == Err(NullDataProvider)
    ensures r.Ok? ==> name.Some? && r.value.name == name.value
    ensures r.Ok? ==> r.value.parent == parent && r.value.children == []
    ensures attributes.None? && name.Some? && hasDataProvider ==> r.Ok? && r.value.attributes == map[]
  {
    if name.None? then Err(NullName)
    else if !hasDataProvider then Err(NullDataProvider)
    else
      var contents :- match attributes
        case None => Ok(map[])
        case Some(list) => ContentMap(list, contentTypes, map[]);
      Ok(Element(name.value, contents, parent, []))
  }

  /** The loop aborts exactly when some attribute is rejected, and then with
      the first rejected attribute, naming it and its text and keeping the cause. */
  lemma {:induction false} ContentMapFailure<C>(attributes: seq<XmlAttribute>, contentTypes: ContentTypes<C>, acc: map<string, C>)
    ensures ContentMap(attributes, contentTypes, acc).Err? <==> FirstFailure(attributes, contentTypes).Some?
    ensures FirstFailure(attributes, contentTypes).Some? ==>
              var a := attributes[FirstFailure(attributes, contentTypes).value];
              ContentMap(attributes, contentTypes, acc) == Err(InvalidAttribute(a.name, a.value, contentTypes(a.name).value(a.value).error))
    decreases |attributes|
  {
    if attributes != [] {
      var a := attributes[0];
      if contentTypes(a.name).Some? && contentTypes(a.name).value(a.value).Ok? {
        ContentMapFailure(attributes[1..], contentTypes, acc[a.name := contentTypes(a.name).value(a.value).value]);
      } else if contentTypes(a.name).None? {
        ContentMapFailure(attributes[1..], contentTypes, acc);
      }
    }
  }

  /** Without a rejected attribute, the map holds exactly the names that have
      a content type and occur in the list (besides what `acc` held), each with
      the content of its LAST occurrence; unknown names are dropped. */
  lemma {:induction false} ContentMapContents<C>(attributes: seq<XmlAttribute>, contentTypes: ContentTypes<C>, acc: map<string, C>, key: string)
    requires ContentMap(attributes, contentTypes, acc).Ok?
    ensures var m := ContentMap(attributes, contentTypes, acc).value;
            (key in m <==> key in acc || (contentTypes(key).Some? && LastIndexOf(attributes, key).Some?))
    ensures var m := ContentMap(attributes, contentTypes, acc).value;
            contentTypes(key).Some? && LastIndexOf(attributes, key).Some? ==>
              contentTypes(key).value(attributes[LastIndexOf(attributes, key).value].value) == Ok(m[key])
    ensures var m := ContentMap(attributes, contentTypes, acc).value;
            !(contentTypes(key).Some? && LastIndexOf(attributes, key).Some?) && key in acc ==> m[key] == acc[key]
    decreases |attributes|
  {
    if attributes != [] {
      var a := attributes[0];
      var tail := attributes[1..];
      assert LastIndexOf(tail, key).Some? ==> LastIndexOf(attributes, key).value == LastIndexOf(tail, key).value + 1;
      assert forall j :: 0 <= j < |tail| ==> tail[j] == attributes[j + 1];
      match contentTypes(a.name)
      case None =>
        ContentMapContents(tail, contentTypes, acc, key);
      case Some(consume) =>
        ContentMapContents(tail, contentTypes, acc[a.name := consume(a.value).value], key);
    }
  }

  /** Construction with a name, a data provider and an attribute list fails
      exactly at the first rejected attribute; otherwise the element's map
      holds, for each name with a content type, the content consumed from its
      last occurrence, and nothing else. */
  lemma ConstructAttributes<C>(name: string, attributes: seq<XmlAttribute>, parent: Option<nat>,
                               contentTypes: ContentTypes<C>, key: string)
    ensures var r := Construct(Some(name), Some(attributes), parent, true, contentTypes);
            r.Err? <==> FirstFailure(attributes, contentTypes).Some?
    ensures var r := Construct(Some(name), Some(attributes), parent, true, contentTypes);
            FirstFailure(attributes, contentTypes).Some? ==>
              var a := attributes[FirstFailure(attributes, contentTypes).value];
              r == Err(InvalidAttribute(a.name, a.value, contentTypes(a.name).value(a.value).error))
    ensures var r := Construct(Some(name), Some(attributes), parent, true, contentTypes);
            r.Ok? ==> (key in r.value.attributes <==> contentTypes(key).Some? && LastIndexOf(attributes, key).Some?)
    ensures var r := Construct(Some(name), Some(attributes), parent, true, contentTypes);
            r.Ok? && contentTypes(key).Some? && LastIndexOf(attributes, key).Some? ==>
              contentTypes(key).value(attributes[LastIndexOf(attributes, key).value].value) == Ok(r.value.attributes[key])
  {
    ContentMapFailure(attributes, contentTypes, map[]);
    if ContentMap(attributes, contentTypes, map[]).Ok? {
      ContentMapContents(attributes, contentTypes, map[], key);
    }
  }

  /** `toString` text of one attribute entry. */
  function Entry(key: string, shown: string): string {
    " " + key + ":" + shown
  }

  /** The entries of the attribute map in the order its entry set yields them. */
  function Entries<C>(attributes: map<string, C>, order: seq<string>, show: C -> string): string
    requires forall i :: 0 <= i < |order| ==> order[i] in attributes
  {
    if order == [] then "" else Entries(attributes, order[..|order| - 1], show) + Entry(order[|order| - 1], show(attributes[order[|order| - 1]]))
  }

  /** `order` lists every key of `attributes` exactly once, as a walk over
      the entry set does. */
  predicate Enumerates<C>(attributes: map<string, C>, order: seq<string>) {
    && (forall i :: 0 <= i < |order| ==> order[i] in attributes)
    && (forall k :: k in attributes ==> k in order)
    && (forall i, j :: 0 <= i < j < |order| ==> order[i] != order[j])
  }

  /** `toString`: `<name`, one ` key:value` per attribute, then `>`. A `HashMap`
      enumerates its entries in no promised order, so the order is a parameter. */
  function ToString<C>(e: Element<C>, order: seq<string>, show: C -> string): (r: string)
    requires Enumerates(e.attributes, order)
    ensures |r| >= |e.name| + 2 && r[..|e.name| + 1] == "<" + e.name && r[|r| - 1] == '>'
    ensures e.attributes == map[] ==> r == "<" + e.name + ">"
  {
    "<" + e.name + Entries(e.attributes, order, show) + ">"
  }

  /** The entries of a prefix of the walk are a prefix of its entries. */
  lemma {:induction false} EntriesPrefix<C>(attributes: map<string, C>, order: seq<string>, show: C -> string, m: nat)
    requires forall i :: 0 <= i < |order| ==> order[i] in attributes
    requires m <= |order|
    ensures var part := Entries(attributes, order[..m], show);
            |part| <= |Entries(attributes, order, show)| && Entries(attributes, order, show)[..|part|] == part
    decreases |order|
  {
    if m < |order| {
      var front := order[..|order| - 1];
      assert front[..m] == order[..m];
      EntriesPrefix(attributes, front, show, m);
    } else {
      assert order[..m] == order;
    }
  }

  /** Where `key` first occurs in `order`. */
  function IndexOf(order: seq<string>, key: string): (i: nat)
    requires key in order
    ensures i < |order| && order[i] == key
  {
    if order[0] == key then 0 else 1 + IndexOf(order[1..], key)
  }

  /** The entry the walk yields `j`-th starts right after the entries before it. */
  lemma {:induction false} EntriesShow<C>(attributes: map<string, C>, order: seq<string>, show: C -> string, j: nat)
    requires forall i :: 0 <= i < |order| ==> order[i] in attributes
    requires j < |order|
    ensures var text := Entries(attributes, order, show);
            var p := |Entries(attributes, order[..j], show)|;
            var entry := Entry(order[j], show(attributes[order[j]]));
            p + |entry| <= |text| && text[p..p + |entry|] == entry
  {
    var upTo := order[..j + 1];
    assert upTo[..j] == order[..j];
    var part := Entries(attributes, upTo, show);
    assert part == Entries(attributes, order[..j], show) + Entry(order[j], show(attributes[order[j]]));
    EntriesPrefix(attributes, order, show, j + 1);
  }

  /** The entry of a walked key appears in `<name`, entries, `>` right after
      the entries walked before it. */
  lemma {:induction false} EnclosedEntriesShow<C>(name: string, attributes: map<string, C>, order: seq<string>, show: C -> string, key: string)
    requires forall i :: 0 <= i < |order| ==> order[i] in attributes
    requires key in order
    ensures key in attributes
    ensures var r := "<" + name + Entries(attributes, order, show) + ">";
            var p := 1 + |name| + |Entries(attributes, order[..IndexOf(order, key)], show)|;
            var entry := Entry(key, show(attributes[key]));
            p + |entry| <= |r| && r[p..p + |entry|] == entry
  {
    var j := IndexOf(order, key);
    var before := Entries(attributes, order[..j], show);
    var text := Entries(attributes, order, show);
    var entry := Entry(key, show(attributes[key]));
    EntriesShow(attributes, order, show, j);
    InfixOfMiddle("<" + name, text, ">", |before|, |entry|);
  }

  /** Every attribute of the element appears in its text as ` key:value`,
      after `<name` and the entries walked before it. */
  lemma {:induction false} ToStringShowsEvery<C>(e: Element<C>, order: seq<string>, show: C -> string, key: string)
    requires Enumerates(e.attributes, order)
    requires key in e.attributes
    ensures var r := ToString(e, order, show);
            var p := 1 + |e.name| + |Entries(e.attributes, order[..IndexOf(order, key)], show)|;
            var entry := Entry(key, show(e.attributes[key]));
            p + |entry| <= |r| && r[p..p + |entry|] == entry
  {
    EnclosedEntriesShow(e.name, e.attributes, order, show, key);
  }

  /** A slice of the middle part of a concatenation. */
  lemma InfixOfMiddle(a: string, b: string, c: string, p: nat, n: nat)
    requires p + n <= |b|
    ensures |a| + p + n <= |a + b + c| && (a + b + c)[|a| + p..|a| + p + n] == b[p..p + n]
  {
  }

  /** The entries text depends only on the values of the keys it walks. */
  lemma {:induction false} EntriesFrame<C>(a: map<string, C>, b: map<string, C>, order: seq<string>, show: C -> string)
    requires forall i :: 0 <= i < |order| ==> order[i] in a && order[i] in b && a[order[i]] == b[order[i]]
    ensures Entries(a, order, show) == Entries(b, order, show)
    decreases |order|
  {
    if order != [] {
      EntriesFrame(a, b, order[..|order| - 1], show);
    }
  }

  /** A new key walked last keeps the walk an enumeration. */
  lemma {:induction false} EnumeratesAppend<C>(attributes: map<string, C>, order: seq<string>, key: string, value: C)
    requires Enumerates(attributes, order)
    requires key !in attributes
    ensures Enumerates(attributes[key := value], order + [key])
  {
    var longer := order + [key];
    forall k | k in attributes[key := value] ensures k in longer {
      if k != key { assert k in order; }
    }
  }

  /** Walking a new key last appends exactly its entry. */
  lemma {:induction false} EntriesAppendNew<C>(attributes: map<string, C>, order: seq<string>, key: string, value: C, show: C -> string)
    requires forall i :: 0 <= i < |order| ==> order[i] in attributes
    requires key !in attributes
    ensures forall i :: 0 <= i < |order + [key]| ==> (order + [key])[i] in attributes[key := value]
    ensures Entries(attributes[key := value], order + [key], show) == Entries(attributes, order, show) + Entry(key, show(value))
  {
    var added := attributes[key := value];
    var longer := order + [key];
    assert longer[..|order|] == order;
    EntriesFrame(attributes, added, order, show);
  }

  /** Adding a new attribute, walked last, adds exactly its own ` key:value`
      before the closing `>`. */
  lemma {:induction false} ToStringAppend<C>(e: Element<C>, order: seq<string>, key: string, value: C, show: C -> string)
    requires Enumerates(e.attributes, order)
    requires key !in e.attributes
    ensures Enumerates(e.attributes[key := value], order + [key])
    ensures var before := ToString(e, order, show);
            ToString(e.(attributes := e.attributes[key := value]), order + [key], show)
              == before[..|before| - 1] + Entry(key, show(value)) + ">"
  {
    EnumeratesAppend(e.attributes, order, key, value);
    EnclosedEntriesAppend(e.name, e.attributes, order, key, value, show);
  }

  /** `<name`, entries, `>` with a new key walked last is the old text with
      the key's entry put before the closing `>`. */
  lemma {:induction false} EnclosedEntriesAppend<C>(name: string, attributes: map<string, C>, order: seq<string>, key: string, value: C, show: C -> string)
    requires forall i :: 0 <= i < |order| ==> order[i] in attributes
    requires key !in attributes
    ensures forall i :: 0 <= i < |order + [key]| ==> (order + [key])[i] in attributes[key := value]
    ensures var before := "<" + name + Entries(attributes, order, show) + ">";
            "<" + name + Entries(attributes[key := value], order + [key], show) + ">"
              == before[..|before| - 1] + Entry(key, show(value)) + ">"
  {
    EntriesAppendNew(attributes, order, key, value, show);
    var open := "<" + name + Entries(attributes, order, show);
    var before := open + ">";
    assert before[..|before| - 1] == open;
  }
}

=== FILE: env.dfy ===
/** The helpers the core calls but whose code is not part of this model
    (`Double.parseDouble`, `StringUtil.splitByDelimiters`, the CSS parser,
    the colour parser, the points parser, the IRI resolver and the table of
    presentation attributes), gathered as
    total functions the model is parameterised by. */
module Environment {
  import opened Wrappers
  import opened Geometry
  import opened ValueTypes

  /** A parsed CSS rule: property name to the text of its value. */
  type Style = map<string, string>

  datatype Env = Env(
    /** `Double.parseDouble`, `None` where it throws `NumberFormatException`. */
    parseNumber: string -> Option<real>,
    /** `StringUtil.splitByDelimiters(text, [" ", ","])`. */
    splitValues: string -> seq<string>,
    /** `SVGContentTypeStyle.parseCssText` on a `name{...}` rule text. */
    parseCss: string -> Style,
    /** The colour parser of the paint type, `None` where it rejects the text. */
    parseColor: string -> Option<Color>,
    /** `SVGContentTypePoints`, `None` where it rejects the text. */
    parsePoints: string -> Option<seq<Point>>,
    /** The IRI parser of `clip-path`: the referenced id of `url(#id)`,
        `None` where `resolveIRI` answers null without looking the id up. */
    iriId: string -> Option<string>,
    /** The names of `SVGCssStyle.PresentationAttribute`, in declaration order. */
    presentationNames: seq<string>)
}

=== FILE: failures.dfy ===
/** The exceptions of the core, one constructor per reason. */
module Failures {

  datatype Error =
      /** SVGException reason NULL_ARGUMENT: empty argument text of a transform function. */
    | NullArgument
      /** SVGException reason INVALID_MATRIX_NUMBER_OF_ELEMENTS_DOES_NOT_MATCH. */
    | InvalidMatrixNumberOfElements(functionName: string, count: nat)
      /** NumberFormatException, or SVGException reason INVALID_NUMBER_FORMAT. */
    | InvalidNumberFormat(text: string)
      /** StringIndexOutOfBoundsException thrown by `substring`/`charAt`. */
    | IndexOutOfBounds
      /** IllegalArgumentException of `Enum.valueOf`: no constant has this name. */
    | NoEnumConstant(text: string)
      /** IllegalArgumentException of the colour parser. */
    | InvalidColor(text: string)
      /** NullPointerException: a required attribute is absent. */
    | MissingAttribute(name: string)
      /** IllegalArgumentException of the element constructor: null name. */
    | NullName
      /** IllegalArgumentException of the element constructor: null data provider. */
    | NullDataProvider
      /** IllegalArgumentException of the element constructor naming the attribute and its value. */
    | InvalidAttribute(name: string, value: string, cause: Error)
      /** SVGException: a class reference matches no registered style. */
    | StyleReferenceNotFound(reference: string)
      /** A reference (href or IRI) names no element of the right kind. */
    | UnresolvedReference(reference: string)
      /** SVGException reason MISSING_ELEMENT. */
    | MissingElement
      /** SVGException reason MISSING_STOPS. */
    | MissingStops
      /** A bounding box of zero extent on an axis used as a divisor. */
    | DegenerateBounds
      /** PathException of a path command. */
    | PathError(data: string)
      /** SVGException wrapping a failure of a child element's result. */
    | ChildFailed(cause: Error)
      /** SVGException of `createAndInitializeResult` naming the element class and keeping the cause. */
    | BuildFailed(className: string, elementName: string, cause: Error)
}

=== FILE: geometry.dfy ===
/** Points and axis-aligned boxes, the JavaFX `Point2D` and `BoundingBox` the core computes with. */
module Geometry {

  datatype Point = Point(x: real, y: real)

  /** A box given by its minimum corner and its extent. */
  datatype Rect = Rect(minX: real, minY: real, width: real, height: real)

  function Min(a: real, b: real): real { if a <= b then a else b }
  function Abs(a: real): real { if a < 0.0 then -a else a }

  predicate Contains(r: Rect, p: Point) {
    r.minX <= p.x <= r.minX + r.width && r.minY <= p.y <= r.minY + r.height
  }

  /** `new BoundingBox(min(a.x, b.x), min(a.y, b.y), abs(a.x - b.x), abs(a.y - b.y))`. */
  function Span(a: Point, b: Point): (r: Rect)
    ensures r.width >= 0.0 && r.height >= 0.0
    ensures Contains(r, a) && Contains(r, b)
    ensures r.minX == a.x || r.minX == b.x
    ensures r.minY == a.y || r.minY == b.y
  {
    Rect(Min(a.x, b.x), Min(a.y, b.y), Abs(a.x - b.x), Abs(a.y - b.y))
  }

  /** The span is the smallest box holding both points: every box that holds them holds it. */
  lemma SpanIsTight(a: Point, b: Point, r: Rect)
    requires Contains(r, a) && Contains(r, b)
    ensures r.minX <= Span(a, b).minX && Span(a, b).minX + Span(a, b).width <= r.minX + r.width
    ensures r.minY <= Span(a, b).minY && Span(a, b).minY + Span(a, b).height <= r.minY + r.height
  {
  }

  /** The span does not depend on the order of its corners. */
  lemma SpanSymmetric(a: Point, b: Point)
    ensures Span(a, b) == Span(b, a)
  {
  }
}

=== FILE: path_commands.dfy ===
/** Path commands: the end point each computes from the current cursor and the
    axis-aligned box its segment covers (the close-path, line-to and vertical
    line-to commands of section 8.3 of SVG 1.1). */
module PathCommands {
  import opened Wrappers
  import opened Failures
  import opened Text
  import opened Geometry

  datatype Command =
    /** `Z`: back to the first point of the subpath. */
    | Close(start: Point)
    /** `L`/`l`: a line to the operand, or by the operand from the cursor. */
    | Line(absolute: bool, operand: Point)
    /** `v`: a vertical line by `delta` from the cursor. */
    | VerticalLine(delta: real)

  /** The upper-case letter of the command. */
  function AbsoluteName(c: Command): char {
    match c
    case Close(_) => 'Z'
    case Line(_, _) => 'L'
    case VerticalLine(_) => 'V'
  }

  /** The relative name is the lower case of the absolute one. */
  function RelativeName(c: Command): (r: char)
    ensures 'a' <= r <= 'z' && UpperChar(r) == AbsoluteName(c) && r != AbsoluteName(c)
  {
    LowerChar(AbsoluteName(c))
  }

  function Add(a: Point, b: Point): Point {
    Point(a.x + b.x, a.y + b.y)
  }

  /** The point the command ends at. A relative line needs a cursor; without one it fails. */
  function EndPoint(c: Command, cursor: Option<Point>): (r: Result<Point, Error>)
    ensures c.Close? ==> r == Ok(c.start)
    ensures c.Line? && c.absolute ==> r == Ok(c.operand)
    ensures c.Line? && !c.absolute ==>
              (cursor.None? <==> r.Err?) && (cursor.Some? ==> r == Ok(Add(cursor.value, c.operand)))
    ensures c.VerticalLine? && cursor.Some? ==>
              r.Ok? && r.value.x == cursor.value.x && r.value.y == cursor.value.y + c.delta
  {
    match c
    case Close(start) => Ok(start)
    case Line(absolute, operand) =>
      if absolute then Ok(operand)
      else if cursor.None? then Err(PathError("a relative command needs a position"))
      else Ok(Add(cursor.value, operand))
    case VerticalLine(delta) =>
      if cursor.None? then Err(PathError("a relative command needs a position"))
      else Ok(Point(cursor.value.x, cursor.value.y + delta))
  }

  /** The box spanned by the cursor and the end point. */
  function BoundingBox(c: Command, cursor: Point): (r: Rect)
    ensures r.width >= 0.0 && r.height >= 0.0
    ensures Contains(r, cursor) && Contains(r, EndPoint(c, Some(cursor)).value)
  {
    Span(cursor, EndPoint(c, Some(cursor)).value)
  }

  /** Close: the next position is the start point whatever the cursor, and the box does not
      depend on which of the two is the cursor. */
  lemma CloseGeometry(start: Point, cursor: Point)
    ensures EndPoint(Close(start), Some(cursor)) == Ok(start)
    ensures BoundingBox(Close(start), cursor) == Span(start, cursor)
    ensures BoundingBox(Close(start), cursor).minX == Min(cursor.x, start.x)
    ensures BoundingBox(Close(start), cursor).width == Abs(cursor.x - start.x)
    ensures BoundingBox(Close(start), cursor).height == Abs(cursor.y - start.y)
  {
    SpanSymmetric(cursor, start);
  }

  /** A relative line's box starts at the smaller of cursor and end on each axis and is as
      large as the operand; an absolute line's box may have zero width. */
  lemma LineBox(absolute: bool, operand: Point, cursor: Point)
    ensures var r := BoundingBox(Line(absolute, operand), cursor);
            (!absolute ==> r.width == Abs(operand.x) && r.height == Abs(operand.y) &&
                           r.minX == Min(cursor.x, cursor.x + operand.x)) &&
            (absolute ==> r.width == Abs(cursor.x - operand.x) && r.minY == Min(cursor.y, operand.y))
  {
  }

  /** A vertical line keeps x: its box has the cursor's x, zero width, the smaller y and height |delta|. */
  lemma VerticalLineBox(delta: real, cursor: Point)
    ensures var r := BoundingBox(VerticalLine(delta), cursor);
            r.minX == cursor.x && r.width == 0.0 && r.minY == Min(cursor.y, cursor.y + delta) &&
            r.height == Abs(delta)
  {
  }

  // --------------------------------------------------------- numeral lexing

  predicate IsDigit(c: char) { '0' <= c <= '9' }

  predicate AllDigits(s: string) { forall i :: 0 <= i < |s| ==> IsDigit(s[i]) }

  /** The value of a run of decimal digits. */
  function DigitsValue(s: string): (r: nat)
    requires AllDigits(s)
  {
    if s == [] then 0 else DigitsValue(s[..|s| - 1]) * 10 + (s[|s| - 1] as int - '0' as int)
  }

  /** The value of the digits after a decimal point: `0.d1d2...`. */
  function FractionValue(s: string): (r: real)
    requires AllDigits(s)
    ensures 0.0 <= r <= 1.0
  {
    if s == [] then 0.0 else ((s[0] as int - '0' as int) as real + FractionValue(s[1..])) / 10.0
  }

  /** An unsigned numeral `digits[.digits]` and its value; anything else is `None`. */
  function Unsigned(body: string): Option<real> {
    var dot := IndexOf(body, '.', 0);
    var whole := if dot < 0 then body else body[..dot];
    var fraction := if dot < 0 then [] else body[dot + 1..];
    if whole == [] || !AllDigits(whole) || (dot >= 0 && (fraction == [] || !AllDigits(fraction))) then None
    else Some(DigitsValue(whole) as real + FractionValue(fraction))
  }

  /** A decimal numeral `[+-]digits[.digits]` and its value; anything else is `None`. */
  function Decimal(s: string): Option<real> {
    if s == [] then None
    else if s[0] == '-' then
      match Unsigned(s[1..])
      case Some(m) => Some(-m)
      case None => None
    else if s[0] == '+' then Unsigned(s[1..])
    else Unsigned(s)
  }

  /** A lexed numeral holds only signs, digits and the decimal point. */
  lemma DecimalAlphabet(s: string, i: nat)
    requires Decimal(s).Some? && i < |s|
    ensures s[i] in "+-.0123456789"
  {
    var body := if s[0] == '-' || s[0] == '+' then s[1..] else s;
    assert Unsigned(body).Some?;
    var dot := IndexOf(body, '.', 0);
    var whole := if dot < 0 then body else body[..dot];
    var fraction := if dot < 0 then [] else body[dot + 1..];
    if s[0] == '-' || s[0] == '+' {
      if i > 0 { DecimalChar(body, dot, whole, fraction, i - 1); }
    } else {
      DecimalChar(body, dot, whole, fraction, i);
    }
  }

  lemma DecimalChar(body: string, dot: int, whole: string, fraction: string, i: nat)
    requires dot == -1 || (0 <= dot < |body| && body[dot] == '.')
    requires whole == (if dot < 0 then body else body[..dot])
    requires fraction == (if dot < 0 then [] else body[dot + 1..])
    requires AllDigits(whole) && AllDigits(fraction)
    requires i < |body|
    ensures body[i] in "+-.0123456789"
  {
    if dot < 0 {
      assert IsDigit(whole[i]);
    } else if i < dot {
      assert IsDigit(whole[i]);
    } else if i > dot {
      assert IsDigit(fraction[i - dot - 1]);
    }
  }

  /** A well-formed numeral: a sign, a non-empty run of digits and an optional fraction. */
  datatype Numeral = Numeral(negative: bool, whole: string, fraction: string)

  predicate ValidNumeral(n: Numeral) {
    n.whole != [] && AllDigits(n.whole) && AllDigits(n.fraction)
  }

  /** The unsigned part of a numeral's text. */
  function NumeralBody(n: Numeral): string {
    if n.fraction == [] then n.whole else n.whole + "." + n.fraction
  }

  function NumeralText(n: Numeral): string {
    if n.negative then "-" + NumeralBody(n) else NumeralBody(n)
  }

  function NumeralValue(n: Numeral): real
    requires ValidNumeral(n)
  {
    var magnitude := DigitsValue(n.whole) as real + FractionValue(n.fraction);
    if n.negative then -magnitude else magnitude
  }

  /** A run of digits lexes to its value. */
  lemma UnsignedWhole(whole: string)
    requires whole != [] && AllDigits(whole)
    ensures Unsigned(whole) == Some(DigitsValue(whole) as real + FractionValue([]))
  {
    assert IndexOf(whole, '.', 0) == -1;
  }

  /** The first `.` of a numeral with a fraction is the one after its whole part. */
  lemma PointPosition(whole: string, fraction: string)
    requires AllDigits(whole)
    ensures IndexOf(whole + "." + fraction, '.', 0) == |whole|
  {
    var body := whole + "." + fraction;
    forall j | 0 <= j < |whole| ensures body[j] != '.' {
      assert body[j] == whole[j] && IsDigit(whole[j]);
    }
    assert body[|whole|] == '.';
  }

  /** A numeral whose first `.` splits it into two runs of digits lexes to the whole
      value plus the fraction's. */
  lemma UnsignedParts(body: string, dot: nat, whole: string, fraction: string)
    requires dot < |body| && IndexOf(body, '.', 0) == dot
    requires body[..dot] == whole && body[dot + 1..] == fraction
    requires whole != [] && AllDigits(whole) && fraction != [] && AllDigits(fraction)
    ensures Unsigned(body) == Some(DigitsValue(whole) as real + FractionValue(fraction))
  {
  }

  /** Digits, a point and digits lex to the whole value plus the fraction's. */
  lemma UnsignedWithFraction(whole: string, fraction: string)
    requires whole != [] && AllDigits(whole) && AllDigits(fraction) && fraction != []
    ensures Unsigned(whole + "." + fraction) == Some(DigitsValue(whole) as real + FractionValue(fraction))
  {
    var body := whole + "." + fraction;
    PointPosition(whole, fraction);
    assert body[..|whole|] == whole;
    assert body[|whole| + 1..] == fraction;
    UnsignedParts(body, |whole|, whole, fraction);
  }

  /** A written numeral starts with a sign or a digit and ends with a digit. */
  lemma NumeralEnds(n: Numeral)
    requires ValidNumeral(n)
    ensures var x := NumeralText(n);
            x != [] && (x[0] == '-' || IsDigit(x[0])) && IsDigit(x[|x| - 1])
  {
    assert IsDigit(n.whole[0]) && IsDigit(n.whole[|n.whole| - 1]);
    var b := NumeralBody(n);
    if n.fraction != [] {
      assert IsDigit(n.fraction[|n.fraction| - 1]);
      assert b[|b| - 1] == n.fraction[|n.fraction| - 1];
    }
    assert b[0] == n.whole[0] && IsDigit(b[|b| - 1]);
    if n.negative {
      assert NumeralText(n)[|NumeralText(n)| - 1] == b[|b| - 1];
    }
  }

  /** A numeral that starts with a digit is lexed unsigned, and a leading `-` negates it. */
  lemma DecimalSign(body: string)
    requires body != [] && IsDigit(body[0])
    ensures Decimal(body) == Unsigned(body)
    ensures Decimal("-" + body) == match Unsigned(body) case Some(m) => Some(-m) case None => None
  {
    assert ("-" + body)[1..] == body;
  }

  /** The unsigned part of a numeral lexes to its magnitude. */
  lemma UnsignedRoundTrip(n: Numeral)
    requires ValidNumeral(n)
    ensures Unsigned(NumeralBody(n)) == Some(DigitsValue(n.whole) as real + FractionValue(n.fraction))
  {
    if n.fraction == [] {
      UnsignedWhole(n.whole);
    } else {
      UnsignedWithFraction(n.whole, n.fraction);
    }
  }

  /** Lexing a written numeral gives back its value. */
  lemma DecimalRoundTrip(n: Numeral)
    requires ValidNumeral(n)
    ensures Decimal(NumeralText(n)) == Some(NumeralValue(n))
  {
    var body := NumeralBody(n);
    UnsignedRoundTrip(n);
    assert IsDigit(body[0]) by {
      assert IsDigit(n.whole[0]) && body[0] == n.whole[0];
    }
    DecimalSign(body);
    if n.negative {
      assert NumeralText(n) == "-" + body;
    } else {
      assert NumeralText(n) == body;
    }
  }

  /** The lexed text is free of trimmable characters, so it cannot hold two numbers or a
      trailing word. */
  lemma DecimalHasNoSpace(s: string, i: nat)
    requires Decimal(s).Some? && i < |s|
    ensures !IsTrimmable(s[i])
  {
    DecimalAlphabet(s, i);
  }

  // ------------------------------------------------- vertical line-to data

  predicate IsVerticalLetter(c: char) { c == 'V' || c == 'v' }

  /** The data of a vertical line-to: surrounding whitespace, an optional `V` or `v`, more
      whitespace, and exactly one number. */
  function ParseVerticalLine(data: string): (r: Result<Command, Error>)
    ensures r.Ok? ==> r.value.VerticalLine?
  {
    match Decimal(NumberText(data))
    case Some(v) => Ok(VerticalLine(v))
    case None => Err(PathError(data))
  }

  /** The text left for the number: the trimmed data without a leading letter and the
      whitespace after it. */
  function NumberText(data: string): string {
    var t := Trim(data);
    if t != [] && IsVerticalLetter(t[0]) then Trim(t[1..]) else t
  }

  predicate Blank(s: string) { forall i :: 0 <= i < |s| ==> IsTrimmable(s[i]) }

  /** Without a letter, the number lexer is given the trimmed data. */
  lemma NumberTextUnlettered(pre: string, x: string, post: string)
    requires Blank(pre) && Blank(post)
    requires x != [] && !IsTrimmable(x[0]) && !IsTrimmable(x[|x| - 1]) && !IsVerticalLetter(x[0])
    ensures NumberText(pre + x + post) == x
  {
    TrimPadded(pre, x, post);
  }

  /** After a letter, the number lexer is given what follows it, trimmed. */
  lemma NumberTextLettered(pre: string, letter: char, mid: string, x: string, post: string)
    requires Blank(pre) && Blank(mid) && Blank(post) && IsVerticalLetter(letter)
    requires x != [] && !IsTrimmable(x[0]) && !IsTrimmable(x[|x| - 1])
    ensures NumberText(pre + ([letter] + mid + x) + post) == x
  {
    var lx := [letter] + mid + x;
    LetteredParts(letter, mid, x, lx);
    TrimPadded(pre, lx, post);
    TrimBlankStart(mid, x);
    NumberTextAfterLetter(pre + lx + post, lx);
  }

  lemma LetteredParts(letter: char, mid: string, x: string, lx: string)
    requires IsVerticalLetter(letter) && x != [] && lx == [letter] + mid + x
    ensures lx != [] && lx[0] == letter && !IsTrimmable(lx[0])
    ensures lx[|lx| - 1] == x[|x| - 1] && lx[1..] == mid + x
  {
  }

  lemma TrimBlankStart(mid: string, x: string)
    requires Blank(mid) && x != [] && !IsTrimmable(x[0]) && !IsTrimmable(x[|x| - 1])
    ensures Trim(mid + x) == x
  {
    TrimPadded(mid, x, []);
    assert mid + x + [] == mid + x;
  }

  lemma NumberTextAfterLetter(data: string, t: string)
    requires Trim(data) == t && t != [] && IsVerticalLetter(t[0])
    ensures NumberText(data) == Trim(t[1..])
  {
  }

  /** What the number lexer is given: the trimmed data, with a leading letter and the
      whitespace after it removed. */
  lemma VerticalNumberText(pre: string, letter: string, mid: string, x: string, post: string)
    requires Blank(pre) && Blank(mid) && Blank(post)
    requires letter == "" || letter == "V" || letter == "v"
    requires x != [] && !IsTrimmable(x[0]) && !IsTrimmable(x[|x| - 1]) && !IsVerticalLetter(x[0])
    ensures NumberText(pre + letter + mid + x + post) == x
  {
    if letter == "" {
      assert pre + letter + mid + x + post == (pre + mid) + x + post;
      NumberTextUnlettered(pre + mid, x, post);
    } else {
      assert pre + letter + mid + x + post == pre + ([letter[0]] + mid + x) + post;
      NumberTextLettered(pre, letter[0], mid, x, post);
    }
  }

  /** Any whitespace around the letter and the number, and the letter itself, may be left out. */
  lemma VerticalLineAccepts(pre: string, letter: string, mid: string, n: Numeral, post: string)
    requires Blank(pre) && Blank(mid) && Blank(post)
    requires letter == "" || letter == "V" || letter == "v"
    requires ValidNumeral(n)
    ensures ParseVerticalLine(pre + letter + mid + NumeralText(n) + post) == Ok(VerticalLine(NumeralValue(n)))
  {
    var x := NumeralText(n);
    DecimalRoundTrip(n);
    NumeralEnds(n);
    VerticalNumberText(pre, letter, mid, x, post);
  }

  /** A second token after the number (a second number, or a trailing command letter) is
      rejected. */
  lemma VerticalLineRejectsTrailing(pre: string, letter: string, mid: string, n: Numeral, sep: string, tail: string, post: string)
    requires Blank(pre) && Blank(mid) && Blank(post) && Blank(sep) && sep != []
    requires letter == "" || letter == "V" || letter == "v"
    requires ValidNumeral(n)
    requires tail != [] && !IsTrimmable(tail[0]) && !IsTrimmable(tail[|tail| - 1])
    ensures ParseVerticalLine(pre + letter + mid + (NumeralText(n) + sep + tail) + post).Err?
  {
    var x := NumeralText(n);
    NumeralEnds(n);
    var body := x + sep + tail;
    assert body[0] == x[0] && body[|body| - 1] == tail[|tail| - 1] && body[|x|] == sep[0];
    VerticalNumberText(pre, letter, mid, body, post);
    TwoTokensRejected(body, |x|);
  }

  /** Text with a whitespace character inside is no numeral. */
  lemma TwoTokensRejected(body: string, i: nat)
    requires i < |body| && IsTrimmable(body[i])
    ensures Decimal(body).None?
  {
    if Decimal(body).Some? {
      DecimalAlphabet(body, i);
    }
  }

  /** Data with no number, such as a lone letter, is rejected. */
  lemma VerticalLineRejectsMissingNumber(pre: string, letter: string, post: string)
    requires Blank(pre) && Blank(post)
    requires letter == "" || letter == "V" || letter == "v"
    ensures ParseVerticalLine(pre + letter + post).Err?
  {
    var data := pre + letter + post;
    if letter == "" {
      BlankJoin(pre, post, data);
      TrimBlank(data);
    } else {
      TrimPadded(pre, letter, post);
      NumberTextAfterLetter(data, letter);
      assert letter[1..] == [];
    }
  }

  lemma BlankJoin(pre: string, post: string, data: string)
    requires Blank(pre) && Blank(post) && data == pre + "" + post
    ensures Blank(data)
  {
    forall i | 0 <= i < |data| ensures IsTrimmable(data[i]) {
      if i < |pre| {
        assert data[i] == pre[i];
      } else {
        assert data[i] == post[i - |pre|];
      }
    }
  }

  /** Text made only of trimmable characters trims to nothing. */
  lemma TrimBlank(s: string)
    requires Blank(s)
    ensures Trim(s) == []
  {
  }

  /** A letter other than `V` or `v` in front of the number is rejected. */
  lemma VerticalLineRejectsOtherLetter(pre: string, c: char, n: Numeral, post: string)
    requires Blank(pre) && Blank(post)
    requires !IsVerticalLetter(c) && c !in "+-.0123456789" && !IsTrimmable(c)
    requires ValidNumeral(n)
    ensures ParseVerticalLine(pre + [c] + NumeralText(n) + post).Err?
  {
    var x := [c] + NumeralText(n);
    assert IsDigit(n.whole[0]);
    assert !IsTrimmable(x[|x| - 1]);
    assert pre + [c] + NumeralText(n) + post == pre + x + post;
    TrimPadded(pre, x, post);
    if Decimal(x).Some? {
      DecimalAlphabet(x, 0);
    }
  }

  function Ten(): (n: Numeral)
    ensures ValidNumeral(n) && NumeralText(n) == "10" && NumeralValue(n) == 10.0
  {
    assert DigitsValue("10") == 10 by { assert "10"[..1] == "1"; }
    Numeral(false, "10", "")
  }

  /** A data string with a letter and no whitespace is accepted. */
  lemma VerticalLineAcceptsLetter()
    ensures ParseVerticalLine("V10") == Ok(VerticalLine(10.0))
  {
    var d := "" + "V" + "" + NumeralText(Ten()) + "";
    assert d == "V10";
    VerticalLineAccepts("", "V", "", Ten(), "");
  }

  /** A lower-case letter with whitespace all around is accepted. */
  lemma VerticalLineAcceptsPadded()
    ensures ParseVerticalLine("   v       10    ") == Ok(VerticalLine(10.0))
  {
    var d := "   " + "v" + "       " + NumeralText(Ten()) + "    ";
    assert d == "   v       10    ";
    VerticalLineAccepts("   ", "v", "       ", Ten(), "    ");
  }

  /** A bare number is accepted. */
  lemma VerticalLineAcceptsBare()
    ensures ParseVerticalLine(" 10 ") == Ok(VerticalLine(10.0))
  {
    var d := " " + "" + "" + NumeralText(Ten()) + " ";
    assert d == " 10 ";
    VerticalLineAccepts(" ", "", "", Ten(), " ");
  }

  /** Two numbers are rejected. */
  lemma VerticalLineRejectsTwoNumbers()
    ensures ParseVerticalLine("V 10 10").Err?
  {
    var d := "" + "V" + " " + (NumeralText(Ten()) + " " + "10") + "";
    assert d == "V 10 10";
    VerticalLineRejectsTrailing("", "V", " ", Ten(), " ", "10", "");
  }

  /** Two numbers are rejected without a space after the letter too. */
  lemma VerticalLineRejectsTwoNumbersUnspaced()
    ensures ParseVerticalLine("V10 10").Err?
  {
    var d := "" + "V" + "" + (NumeralText(Ten()) + " " + "10") + "";
    assert d == "V10 10";
    VerticalLineRejectsTrailing("", "V", "", Ten(), " ", "10", "");
  }

  /** A trailing command letter is rejected. */
  lemma VerticalLineRejectsTrailingLetter()
    ensures ParseVerticalLine("V10 Z").Err?
  {
    var d := "" + "V" + "" + (NumeralText(Ten()) + " " + "Z") + "";
    assert d == "V10 Z";
    VerticalLineRejectsTrailing("", "V", "", Ten(), " ", "Z", "");
  }

  /** The close-path letter in front of the number is rejected. */
  lemma VerticalLineRejectsCloseLetter()
    ensures ParseVerticalLine("Z10").Err?
  {
    var d := "" + ['Z'] + NumeralText(Ten()) + "";
    assert d == "Z10";
    VerticalLineRejectsOtherLetter("", 'Z', Ten(), "");
  }

  /** A lone letter is rejected. */
  lemma VerticalLineRejectsLoneLetter()
    ensures ParseVerticalLine("V").Err?
  {
    var d := "" + "V" + "";
    assert d == "V";
    VerticalLineRejectsMissingNumber("", "V", "");
  }
}

=== FILE: results.dfy ===
/** Building the result of an element (`SVGElementBase.getResult`,
    `createAndInitializeResult`, `Group`, `SVGGradientBase.getStops`): the
    style is resolved first, then the element-specific result is created and
    initialised, and any failure of that step is wrapped with the element's
    class. Results are memoised per element. */
module Results {
  import opened Wrappers
  import opened Failures
  import opened Text
  import opened Environment
  import opened Documents
  import opened SvgElement
  import opened Shapes

  /** The result objects: JavaFX nodes, stops, paints, or `null`. */
  datatype Value =
    | Group(children: seq<Value>, opacity: real)
    | RectangleNode(rectangle: Rectangle)
    | CircleNode(circle: Circle)
    | EllipseNode(ellipse: Ellipse)
    | PolygonNode(polygonPoints: seq<real>)
    | PolylineNode(polylinePoints: seq<real>)
    | StopValue(stop: Stop)
    | PaintValue(gradient: LinearGradient)
    | NoValue

  /** `instanceof javafx.scene.Node`. */
  predicate IsNode(v: Value) {
    v.Group? || v.RectangleNode? || v.CircleNode? || v.EllipseNode? || v.PolygonNode? || v.PolylineNode?
  }

  /** The opacity `Group.createResultInternal` gives every group. */
  const GroupOpacity: real := 1.0

  const HrefAttribute: string := "xlink:href"

  /** The child results that are nodes, in their order. */
  function FilterNodes(values: seq<Value>): (r: seq<Value>)
    ensures |r| <= |values|
    ensures forall i :: 0 <= i < |r| ==> IsNode(r[i]) && r[i] in values
    ensures forall v :: v in values && IsNode(v) ==> v in r
  {
    if values == [] then []
    else (if IsNode(values[0]) then [values[0]] else []) + FilterNodes(values[1..])
  }

  /** Filtering keeps the order of the results: it distributes over
      concatenation, and keeps a single result exactly when it is a node. */
  lemma {:induction false} FilterNodesAppend(a: seq<Value>, b: seq<Value>)
    ensures FilterNodes(a + b) == FilterNodes(a) + FilterNodes(b)
  {
    if a == [] {
      assert a + b == b;
    } else {
      assert (a + b)[0] == a[0];
      assert (a + b)[1..] == a[1..] + b;
      FilterNodesAppend(a[1..], b);
    }
  }

  lemma FilterNodesSingle(v: Value)
    ensures FilterNodes([v]) == if IsNode(v) then [v] else []
  {
    assert [v][1..] == [];
  }

  /** A failure of `createResult`/`initializeResult`, wrapped with the
      element's class and name; the cause is kept. */
  function Wrap<T>(n: Node, created: Result<T, Error>): (r: Result<T, Error>)
    ensures created.Ok? ==> r == created
    ensures created.Err? ==> r == Err(BuildFailed(ClassName(n.kind), n.name, created.error))
  {
    match created
    case Ok(v) => Ok(v)
    case Err(e) => Err(BuildFailed(ClassName(n.kind), n.name, e))
  }

  /** `getResult` of a stop: resolve the style, then create the stop. */
  function BuildStop(doc: Doc, env: Env, id: nat): (r: Result<Stop, Error>)
    requires WellFormed(doc) && id < |doc.nodes|
    ensures Resolved(doc, env, id).Err? ==> r == Err(Resolved(doc, env, id).error)
    ensures Resolved(doc, env, id).Ok? ==> r == Wrap(doc.nodes[id], CreateStop(env, doc.nodes[id]))
  {
    var _ :- Resolved(doc, env, id);
    Wrap(doc.nodes[id], CreateStop(env, doc.nodes[id]))
  }

  /** The stop results of the stop elements among `children`, in order; the
      first stop that fails aborts. */
  function StopsOf(doc: Doc, env: Env, children: seq<nat>): Result<seq<Stop>, Error>
    requires WellFormed(doc) && forall j :: 0 <= j < |children| ==> children[j] < |doc.nodes|
  {
    if children == [] then Ok([])
    else if doc.nodes[children[0]].kind != StopKind then StopsOf(doc, env, children[1..])
    else
      var stop :- BuildStop(doc, env, children[0]);
      var rest :- StopsOf(doc, env, children[1..]);
      Ok([stop] + rest)
  }

  /** The stops are exactly the results of the stop children, in order:
      collecting distributes over concatenation of the child list. */
  lemma {:induction false} StopsOfAppend(doc: Doc, env: Env, a: seq<nat>, b: seq<nat>)
    requires WellFormed(doc)
    requires forall j :: 0 <= j < |a| ==> a[j] < |doc.nodes|
    requires forall j :: 0 <= j < |b| ==> b[j] < |doc.nodes|
    requires StopsOf(doc, env, a).Ok? && StopsOf(doc, env, b).Ok?
    ensures StopsOf(doc, env, a + b).Ok?
    ensures StopsOf(doc, env, a + b).value == StopsOf(doc, env, a).value + StopsOf(doc, env, b).value
  {
    if a == [] {
      assert a + b == b;
    } else {
      assert (a + b)[0] == a[0];
      assert (a + b)[1..] == a[1..] + b;
      StopsOfAppend(doc, env, a[1..], b);
      if doc.nodes[a[0]].kind == StopKind {
        var stop := BuildStop(doc, env, a[0]).value;
        assert StopsOf(doc, env, a).value == [stop] + StopsOf(doc, env, a[1..]).value;
        assert StopsOf(doc, env, a + b) == Ok([stop] + StopsOf(doc, env, a[1..] + b).value);
      }
    }
  }

  /** A child that is not a stop contributes nothing; a stop child contributes its result. */
  lemma StopsOfSingle(doc: Doc, env: Env, c: nat)
    requires WellFormed(doc) && c < |doc.nodes|
    ensures doc.nodes[c].kind != StopKind ==> StopsOf(doc, env, [c]) == Ok([])
    ensures doc.nodes[c].kind == StopKind && BuildStop(doc, env, c).Ok? ==>
              StopsOf(doc, env, [c]).Ok? && StopsOf(doc, env, [c]).value == [BuildStop(doc, env, c).value]
    ensures doc.nodes[c].kind == StopKind && BuildStop(doc, env, c).Err? ==> StopsOf(doc, env, [c]) == Err(BuildStop(doc, env, c).error)
  {
    assert [c][1..] == [];
    assert StopsOf(doc, env, [c][1..]) == Ok([]);
  }

  /** The linear gradient an `xlink:href` text refers to: its id is the text
      without its first `#`. */
  function ReferencedGradient(doc: Doc, reference: string): (r: Option<nat>)
    requires WellFormed(doc)
    ensures r.Some? <==> RemoveFirst(reference, '#') in doc.ids && doc.nodes[doc.ids[RemoveFirst(reference, '#')]].kind == LinearGradientKind
    ensures r.Some? ==> r.value == doc.ids[RemoveFirst(reference, '#')] && r.value < |doc.nodes|
  {
    var target := RemoveFirst(reference, '#');
    if target in doc.ids && doc.nodes[doc.ids[target]].kind == LinearGradientKind then Some(doc.ids[target]) else None
  }

  /** `getStops`: with an `xlink:href` the stops of the referenced linear
      gradient, else the element's own stops. */
  function GetStops(doc: Doc, env: Env, id: nat): (r: Result<seq<Stop>, Error>)
    requires WellFormed(doc) && id < |doc.nodes|
    ensures (HrefAttribute in doc.nodes[id].attributes && ReferencedGradient(doc, doc.nodes[id].attributes[HrefAttribute]).None?)
              ==> r == Err(UnresolvedReference(doc.nodes[id].attributes[HrefAttribute]))
    ensures (HrefAttribute in doc.nodes[id].attributes && ReferencedGradient(doc, doc.nodes[id].attributes[HrefAttribute]).Some?)
              ==> r == StopsOf(doc, env, doc.nodes[ReferencedGradient(doc, doc.nodes[id].attributes[HrefAttribute]).value].children)
    ensures HrefAttribute !in doc.nodes[id].attributes ==> r == StopsOf(doc, env, doc.nodes[id].children)
  {
    var n := doc.nodes[id];
    if HrefAttribute in n.attributes then
      var reference := n.attributes[HrefAttribute];
      match ReferencedGradient(doc, reference)
      case None => Err(UnresolvedReference(reference))
      case Some(target) => StopsOf(doc, env, doc.nodes[target].children)
    else StopsOf(doc, env, n.children)
  }

  /** With a reference, a gradient's own children do not matter: two
      gradients with the same reference get the same stops. */
  lemma SameReferenceSameStops(doc: Doc, env: Env, a: nat, b: nat)
    requires WellFormed(doc) && a < |doc.nodes| && b < |doc.nodes|
    requires HrefAttribute in doc.nodes[a].attributes && HrefAttribute in doc.nodes[b].attributes
    requires doc.nodes[a].attributes[HrefAttribute] == doc.nodes[b].attributes[HrefAttribute]
    ensures GetStops(doc, env, a) == GetStops(doc, env, b)
  {
  }

  /** A gradient that refers to a gradient without a reference of its own
      gets exactly the stops that gradient gets. */
  lemma ReferenceSharesStops(doc: Doc, env: Env, id: nat, target: nat)
    requires WellFormed(doc) && id < |doc.nodes| && target < |doc.nodes|
    requires HrefAttribute in doc.nodes[id].attributes
    requires ReferencedGradient(doc, doc.nodes[id].attributes[HrefAttribute]) == Some(target)
    requires HrefAttribute !in doc.nodes[target].attributes
    ensures GetStops(doc, env, id) == GetStops(doc, env, target)
  {
  }

  /** The children of a node as one fact about the arena. */
  predicate ChildrenBelow(doc: Doc, parent: nat, children: seq<nat>) {
    forall j :: 0 <= j < |children| ==> parent < children[j] < |doc.nodes|
  }

  /** `createAndInitializeResult()` of element `id`. */
  function Build(doc: Doc, env: Env, id: nat): Result<Value, Error>
    requires WellFormed(doc) && id < |doc.nodes|
    decreases |doc.nodes| - id, 1
  {
    var _ :- Resolved(doc, env, id);
    Wrap(doc.nodes[id], Create(doc, env, id))
  }

  /** `createResult` followed by `initializeResult`, by element class. */
  function Create(doc: Doc, env: Env, id: nat): Result<Value, Error>
    requires WellFormed(doc) && id < |doc.nodes|
    decreases |doc.nodes| - id, 0
  {
    var n := doc.nodes[id];
    match n.kind
    case GroupKind =>
      var children :- Collect(doc, env, id, n.children);
      Ok(Group(FilterNodes(children), GroupOpacity))
    case ClipPathKind =>
      var children :- Collect(doc, env, id, n.children);
      Ok(Group(FilterNodes(children), GroupOpacity))
    case RectangleKind =>
      var rect :- CreateRectangle(env, n);
      var withArcs :- ApplyArcs(env, n, rect);
      Ok(RectangleNode(withArcs))
    case CircleKind =>
      var circle :- CreateCircle(env, n);
      Ok(CircleNode(circle))
    case EllipseKind =>
      var ellipse :- CreateEllipse(env, n);
      Ok(EllipseNode(ellipse))
    case PolygonKind =>
      var points :- GetPoints(env, n);
      Ok(PolygonNode(points))
    case PolylineKind =>
      var points :- GetPoints(env, n);
      Ok(PolylineNode(points))
    case StopKind =>
      var stop :- CreateStop(env, n);
      Ok(StopValue(stop))
    case LinearGradientKind =>
      var gradient :- CreateLinearGradient(env, n, GetStops(doc, env, id), None);
      Ok(PaintValue(gradient))
    case OtherKind => Ok(NoValue)
  }

  /** The results of the children in order; a failing child aborts with an
      exception wrapping its failure. */
  function Collect(doc: Doc, env: Env, parent: nat, children: seq<nat>): Result<seq<Value>, Error>
    requires WellFormed(doc) && parent < |doc.nodes| && ChildrenBelow(doc, parent, children)
    decreases |doc.nodes| - parent, 0, |children|
  {
    if children == [] then Ok([])
    else
      var first := Build(doc, env, children[0]);
      if first.Err? then Err(ChildFailed(first.error))
      else
        var rest :- Collect(doc, env, parent, children[1..]);
        Ok([first.value] + rest)
  }

  /** The position of the first child whose result fails, if any. */
  function FirstFailingChild(doc: Doc, env: Env, parent: nat, children: seq<nat>): (r: Option<nat>)
    requires WellFormed(doc) && parent < |doc.nodes| && ChildrenBelow(doc, parent, children)
    ensures r.Some? ==> r.value < |children|
  {
    if children == [] then None
    else if Build(doc, env, children[0]).Err? then Some(0)
    else match FirstFailingChild(doc, env, parent, children[1..])
      case None => None
      case Some(i) => Some(i + 1)
  }

  /** The child found fails, every child before it succeeds, and when none is found
      every child succeeds. */
  lemma {:induction false} FirstFailingChildFound(doc: Doc, env: Env, parent: nat, children: seq<nat>)
    requires WellFormed(doc) && parent < |doc.nodes| && ChildrenBelow(doc, parent, children)
    ensures var r := FirstFailingChild(doc, env, parent, children);
            r.Some? ==> Build(doc, env, children[r.value]).Err? &&
                        forall j :: 0 <= j < r.value ==> Build(doc, env, children[j]).Ok?
    ensures FirstFailingChild(doc, env, parent, children).None? ==>
              forall j :: 0 <= j < |children| ==> Build(doc, env, children[j]).Ok?
    decreases |children|
  {
    if children != [] && Build(doc, env, children[0]).Ok? {
      var tail := children[1..];
      FirstFailingChildFound(doc, env, parent, tail);
      assert forall j :: 0 <= j < |tail| ==> tail[j] == children[j + 1];
    }
  }

  /** Collecting succeeds exactly when every child does, and then yields
      each child's result at the child's position; otherwise it fails with
      the first failing child's error, wrapped once. */
  lemma {:induction false} CollectResults(doc: Doc, env: Env, parent: nat, children: seq<nat>)
    requires WellFormed(doc) && parent < |doc.nodes| && ChildrenBelow(doc, parent, children)
    ensures Collect(doc, env, parent, children).Ok? <==> FirstFailingChild(doc, env, parent, children).None?
    ensures Collect(doc, env, parent, children).Ok? ==>
              var values := Collect(doc, env, parent, children).value;
              |values| == |children| && forall j :: 0 <= j < |children| ==> Build(doc, env, children[j]) == Ok(values[j])
    ensures FirstFailingChild(doc, env, parent, children).Some? ==>
              var failed := Build(doc, env, children[FirstFailingChild(doc, env, parent, children).value]);
              failed.Err? && Collect(doc, env, parent, children) == Err(ChildFailed(failed.error))
  {
    CollectFailure(doc, env, parent, children);
    if Collect(doc, env, parent, children).Ok? {
      CollectValues(doc, env, parent, children);
    }
  }

  lemma {:induction false} CollectFailure(doc: Doc, env: Env, parent: nat, children: seq<nat>)
    requires WellFormed(doc) && parent < |doc.nodes| && ChildrenBelow(doc, parent, children)
    ensures Collect(doc, env, parent, children).Ok? <==> FirstFailingChild(doc, env, parent, children).None?
    ensures FirstFailingChild(doc, env, parent, children).Some? ==>
              var failed := Build(doc, env, children[FirstFailingChild(doc, env, parent, children).value]);
              failed.Err? && Collect(doc, env, parent, children) == Err(ChildFailed(failed.error))
    decreases |children|
  {
    if children != [] && Build(doc, env, children[0]).Ok? {
      var tail := children[1..];
      CollectFailure(doc, env, parent, tail);
      if FirstFailingChild(doc, env, parent, tail).Some? {
        var i := FirstFailingChild(doc, env, parent, tail).value;
        assert tail[i] == children[i + 1];
      }
    }
  }

  lemma {:induction false} CollectValues(doc: Doc, env: Env, parent: nat, children: seq<nat>)
    requires WellFormed(doc) && parent < |doc.nodes| && ChildrenBelow(doc, parent, children)
    requires Collect(doc, env, parent, children).Ok?
    ensures var values := Collect(doc, env, parent, children).value;
            |values| == |children| && forall j :: 0 <= j < |children| ==> Build(doc, env, children[j]) == Ok(values[j])
    decreases |children|
  {
    if children != [] {
      var tail := children[1..];
      CollectValues(doc, env, parent, tail);
      assert forall j :: 0 <= j < |tail| ==> tail[j] == children[j + 1];
    }
  }


  /** A group's result holds exactly the children's results that are nodes,
      in document order, at opacity 1; a failing child makes the group fail
      with the first failure wrapped twice: by the group, then by the
      element's own wrapping. */
  lemma GroupResult(doc: Doc, env: Env, id: nat)
    requires WellFormed(doc) && id < |doc.nodes| && doc.nodes[id].kind == GroupKind
    requires Resolved(doc, env, id).Ok?
    ensures var n := doc.nodes[id];
            FirstFailingChild(doc, env, id, n.children).None? ==>
              Collect(doc, env, id, n.children).Ok? &&
              Build(doc, env, id) == Ok(Group(FilterNodes(Collect(doc, env, id, n.children).value), GroupOpacity))
    ensures var n := doc.nodes[id];
            FirstFailingChild(doc, env, id, n.children).Some? ==>
              var failed := Build(doc, env, n.children[FirstFailingChild(doc, env, id, n.children).value]);
              failed.Err? && Build(doc, env, id) == Err(BuildFailed(ClassName(GroupKind), n.name, ChildFailed(failed.error)))
  {
    CollectResults(doc, env, id, doc.nodes[id].children);
  }

  /** A failure to resolve the style is not wrapped: it happens before the
      wrapped creation step. */
  lemma StyleFailureUnwrapped(doc: Doc, env: Env, id: nat)
    requires WellFormed(doc) && id < |doc.nodes| && Resolved(doc, env, id).Err?
    ensures Build(doc, env, id) == Err(Resolved(doc, env, id).error)
  {
  }

  /** Building a stop element is building its stop. */
  lemma BuildStopAgrees(doc: Doc, env: Env, id: nat)
    requires WellFormed(doc) && id < |doc.nodes| && doc.nodes[id].kind == StopKind
    ensures BuildStop(doc, env, id).Ok? ==> Build(doc, env, id) == Ok(StopValue(BuildStop(doc, env, id).value))
    ensures BuildStop(doc, env, id).Err? ==> Build(doc, env, id) == Err(BuildStop(doc, env, id).error)
  {
  }

  /** `getClipPath()` followed by the clip path's `getResult()`. */
  function ClipPathResult(doc: Doc, env: Env, id: nat): (r: Result<Option<Value>, Error>)
    requires WellFormed(doc) && id < |doc.nodes|
    ensures ElementClipPath(doc, env, id) == Ok(None) ==> r == Ok(None)
    ensures r.Ok? && r.value.Some? ==> exists j :: 0 <= j < |doc.nodes| && j != id && ElementClipPath(doc, env, id) == Ok(Some(j))
                                                   && Build(doc, env, j) == Ok(r.value.value)
  {
    var clip :- ElementClipPath(doc, env, id);
    match clip
    case None => Ok(None)
    case Some(j) =>
      var v :- Build(doc, env, j);
      Ok(Some(v))
  }

  // ----- memoisation -----

  /** The `result` fields of the elements: the results built so far. */
  type Memo = map<nat, Value>

  /** Every memoised result is the element's result and is not `null`. */
  predicate MemoConsistent(doc: Doc, env: Env, memo: Memo)
    requires WellFormed(doc)
  {
    forall k :: k in memo ==> k < |doc.nodes| && memo[k] != NoValue && Build(doc, env, k) == Ok(memo[k])
  }

  /** `getResult()`: the stored result if there is one, else a new one,
      stored unless it is `null` (so a `null` result is built again next
      time) or the build failed. */
  function GetResult(doc: Doc, env: Env, memo: Memo, id: nat): (r: (Result<Value, Error>, Memo))
    requires WellFormed(doc) && id < |doc.nodes|
    ensures id in memo ==> r == (Ok(memo[id]), memo)
    ensures r.1 == memo || (id !in memo && r.0.Ok? && r.0.value != NoValue && r.1 == memo[id := r.0.value])
  {
    if id in memo then (Ok(memo[id]), memo)
    else match Build(doc, env, id)
      case Err(e) => (Err(e), memo)
      case Ok(v) => if v == NoValue then (Ok(v), memo) else (Ok(v), memo[id := v])
  }

  /** With a consistent memo, `getResult` answers what building answers and
      the memo stays consistent. */
  lemma GetResultConsistent(doc: Doc, env: Env, memo: Memo, id: nat)
    requires WellFormed(doc) && id < |doc.nodes| && MemoConsistent(doc, env, memo)
    ensures GetResult(doc, env, memo, id).0 == Build(doc, env, id)
    ensures MemoConsistent(doc, env, GetResult(doc, env, memo, id).1)
  {
  }

  /** Once a non-null result is returned, asking again returns the same
      result without building anything. */
  lemma GetResultStable(doc: Doc, env: Env, memo: Memo, id: nat)
    requires WellFormed(doc) && id < |doc.nodes|
    requires GetResult(doc, env, memo, id).0.Ok? && GetResult(doc, env, memo, id).0.value != NoValue
    ensures var (first, memo1) := GetResult(doc, env, memo, id);
            GetResult(doc, env, memo1, id) == (first, memo1)
  {
  }
}

=== FILE: shapes.dfy ===
/** What the shape, stop and gradient elements read from their attributes:
    defaults for optional lengths, failures for required ones, the rectangle's
    arc sizes, the flattened point list of polygons and polylines, and the
    linear gradient's coordinates. */
module Shapes {
  import opened Wrappers
  import opened Failures
  import opened Environment
  import opened Geometry
  import opened ValueTypes
  import opened Documents

  /** `SVGAttributeTypeLength.DEFAULT_VALUE`. */
  const LengthDefault: real := 0.0

  datatype Rectangle = Rectangle(x: real, y: real, width: real, height: real, arcWidth: real, arcHeight: real)
  datatype Circle = Circle(centerX: real, centerY: real, radius: real)
  datatype Ellipse = Ellipse(centerX: real, centerY: real, radiusX: real, radiusY: real)
  datatype Stop = Stop(offset: real, color: Color)

  /** `Double.parseDouble(text)`. */
  function ParseDouble(env: Env, text: string): (r: Result<real, Error>)
    ensures r.Ok? <==> env.parseNumber(text).Some?
    ensures r.Ok? ==> r.value == env.parseNumber(text).value
    ensures r.Err? ==> r.error == InvalidNumberFormat(text)
  {
    match env.parseNumber(text)
    case Some(v) => Ok(v)
    case None => Err(InvalidNumberFormat(text))
  }

  /** `Double.parseDouble(getAttribute(name))`: a null text throws before parsing. */
  function RequiredNumber(env: Env, n: Node, name: string): (r: Result<real, Error>)
    ensures name !in n.attributes ==> r == Err(MissingAttribute(name))
    ensures name in n.attributes ==> r == ParseDouble(env, n.attributes[name])
  {
    if name in n.attributes then ParseDouble(env, n.attributes[name]) else Err(MissingAttribute(name))
  }

  /** `isNullOrEmpty(text) ? default : Double.parseDouble(text)`. */
  function NumberOrDefault(env: Env, n: Node, name: string, default: real): (r: Result<real, Error>)
    ensures !HasText(n, name) ==> r == Ok(default)
    ensures HasText(n, name) ==> r == ParseDouble(env, n.attributes[name])
  {
    if HasText(n, name) then ParseDouble(env, n.attributes[name]) else Ok(default)
  }

  /** `getAttributeValue(name, Double.class, default)`: the typed value of the
      attribute if it is present, else the default. */
  function ValueOrDefault(env: Env, n: Node, name: string, default: real): (r: Result<real, Error>)
    ensures name !in n.attributes ==> r == Ok(default)
    ensures name in n.attributes ==> r == ParseDouble(env, n.attributes[name])
  {
    if name in n.attributes then ParseDouble(env, n.attributes[name]) else Ok(default)
  }

  // ----- rectangle -----

  /** `SVGRectangle.createResult`: `x` and `y` default to 0 when missing or
      empty, `width` and `height` are required; no arcs yet. */
  function CreateRectangle(env: Env, n: Node): (r: Result<Rectangle, Error>)
    ensures r.Ok? ==> r.value.arcWidth == 0.0 && r.value.arcHeight == 0.0
    ensures r.Ok? ==> (!HasText(n, "x") ==> r.value.x == 0.0) && (!HasText(n, "y") ==> r.value.y == 0.0)
    ensures r.Ok? ==> "width" in n.attributes && ParseDouble(env, n.attributes["width"]) == Ok(r.value.width)
                      && "height" in n.attributes && ParseDouble(env, n.attributes["height"]) == Ok(r.value.height)
    ensures ("width" !in n.attributes && NumberOrDefault(env, n, "x", 0.0).Ok? && NumberOrDefault(env, n, "y", 0.0).Ok?)
              ==> r == Err(MissingAttribute("width"))
  {
    var x :- NumberOrDefault(env, n, "x", 0.0);
    var y :- NumberOrDefault(env, n, "y", 0.0);
    var width :- RequiredNumber(env, n, "width");
    var height :- RequiredNumber(env, n, "height");
    Ok(Rectangle(x, y, width, height, 0.0, 0.0))
  }

  /** `SVGRectangle.initializeResult` after the base initialisation: a present
      radius sets the matching arc to twice its value, an absent one leaves
      the arc as it was. */
  function ApplyArcs(env: Env, n: Node, rect: Rectangle): (r: Result<Rectangle, Error>)
    ensures r.Ok? ==> r.value.(arcWidth := rect.arcWidth, arcHeight := rect.arcHeight) == rect
    ensures r.Ok? ==> (HasText(n, "rx") ==> ParseDouble(env, n.attributes["rx"]) == Ok(r.value.arcWidth / 2.0))
                      && (!HasText(n, "rx") ==> r.value.arcWidth == rect.arcWidth)
    ensures r.Ok? ==> (HasText(n, "ry") ==> ParseDouble(env, n.attributes["ry"]) == Ok(r.value.arcHeight / 2.0))
                      && (!HasText(n, "ry") ==> r.value.arcHeight == rect.arcHeight)
    ensures r.Err? <==> (HasText(n, "rx") && ParseDouble(env, n.attributes["rx"]).Err?)
                        || (HasText(n, "ry") && ParseDouble(env, n.attributes["ry"]).Err?)
  {
    var withWidth :-
      if HasText(n, "rx") then
        var rx :- ParseDouble(env, n.attributes["rx"]);
        Ok(rect.(arcWidth := rx * 2.0))
      else Ok(rect);
    if HasText(n, "ry") then
      var ry :- ParseDouble(env, n.attributes["ry"]);
      Ok(withWidth.(arcHeight := ry * 2.0))
    else Ok(withWidth)
  }

  // ----- circle and ellipse -----

  /** `SVGCircle.createResult`: the centre defaults to the length default,
      the radius is required. */
  function CreateCircle(env: Env, n: Node): (r: Result<Circle, Error>)
    ensures r.Ok? ==> ("cx" !in n.attributes ==> r.value.centerX == LengthDefault)
                      && ("cy" !in n.attributes ==> r.value.centerY == LengthDefault)
    ensures r.Ok? ==> ("cx" in n.attributes ==> ParseDouble(env, n.attributes["cx"]) == Ok(r.value.centerX))
                      && ("cy" in n.attributes ==> ParseDouble(env, n.attributes["cy"]) == Ok(r.value.centerY))
                      && "r" in n.attributes && ParseDouble(env, n.attributes["r"]) == Ok(r.value.radius)
    ensures "r" !in n.attributes ==> r.Err?
  {
    var cx :- ValueOrDefault(env, n, "cx", LengthDefault);
    var cy :- ValueOrDefault(env, n, "cy", LengthDefault);
    var radius :- RequiredNumber(env, n, "r");
    Ok(Circle(cx, cy, radius))
  }

  /** `SVGEllipse.createResult`: the centre defaults to the length default,
      both radii are required. */
  function CreateEllipse(env: Env, n: Node): (r: Result<Ellipse, Error>)
    ensures r.Ok? ==> ("cx" !in n.attributes ==> r.value.centerX == LengthDefault)
                      && ("cy" !in n.attributes ==> r.value.centerY == LengthDefault)
    ensures r.Ok? ==> ("cx" in n.attributes ==> ParseDouble(env, n.attributes["cx"]) == Ok(r.value.centerX))
                      && ("cy" in n.attributes ==> ParseDouble(env, n.attributes["cy"]) == Ok(r.value.centerY))
                      && "rx" in n.attributes && ParseDouble(env, n.attributes["rx"]) == Ok(r.value.radiusX)
                      && "ry" in n.attributes && ParseDouble(env, n.attributes["ry"]) == Ok(r.value.radiusY)
    ensures "rx" !in n.attributes || "ry" !in n.attributes ==> r.Err?
  {
    var cx :- ValueOrDefault(env, n, "cx", LengthDefault);
    var cy :- ValueOrDefault(env, n, "cy", LengthDefault);
    var rx :- RequiredNumber(env, n, "rx");
    var ry :- RequiredNumber(env, n, "ry");
    Ok(Ellipse(cx, cy, rx, ry))
  }

  // ----- polygon and polyline points -----

  /** The points as one list `x0, y0, x1, y1, ...`. */
  function Flatten(points: seq<Point>): (r: seq<real>)
    ensures |r| == 2 * |points|
    ensures forall i :: 0 <= i < |points| ==> r[2 * i] == points[i].x && r[2 * i + 1] == points[i].y
  {
    if points == [] then [] else [points[0].x, points[0].y] + Flatten(points[1..])
  }

  /** Pairs a flat list back into points. */
  function Pair(values: seq<real>): (r: seq<Point>)
    requires |values| % 2 == 0
    ensures |r| == |values| / 2
  {
    if values == [] then [] else [Point(values[0], values[1])] + Pair(values[2..])
  }

  /** Flattening loses nothing: pairing the list up again gives the points back. */
  lemma {:induction false} FlattenPair(points: seq<Point>)
    ensures Pair(Flatten(points)) == points
  {
    if points != [] {
      FlattenPair(points[1..]);
      assert Flatten(points)[2..] == Flatten(points[1..]);
    }
  }

  /** Flattening keeps the order of the points: it distributes over concatenation. */
  lemma {:induction false} FlattenAppend(a: seq<Point>, b: seq<Point>)
    ensures Flatten(a + b) == Flatten(a) + Flatten(b)
  {
    if a != [] {
      assert (a + b)[0] == a[0];
      assert (a + b)[1..] == a[1..] + b;
      FlattenAppend(a[1..], b);
      calc {
        Flatten(a + b);
        [a[0].x, a[0].y] + Flatten(a[1..] + b);
        [a[0].x, a[0].y] + (Flatten(a[1..]) + Flatten(b));
        ([a[0].x, a[0].y] + Flatten(a[1..])) + Flatten(b);
        Flatten(a) + Flatten(b);
      }
    } else {
      assert a + b == b;
    }
  }

  /** `SVGPolyBase.getPoints`: no `points` attribute gives the empty list,
      otherwise each parsed point contributes its x and then its y. */
  function GetPoints(env: Env, n: Node): (r: Result<seq<real>, Error>)
    ensures "points" !in n.attributes ==> r == Ok([])
    ensures "points" in n.attributes && env.parsePoints(n.attributes["points"]).Some? ==>
              r.Ok? && |r.value| % 2 == 0 && Pair(r.value) == env.parsePoints(n.attributes["points"]).value
    ensures "points" in n.attributes && env.parsePoints(n.attributes["points"]).None? ==>
              r == Err(InvalidNumberFormat(n.attributes["points"]))
  {
    if "points" !in n.attributes then Ok([])
    else match env.parsePoints(n.attributes["points"])
      case None => Err(InvalidNumberFormat(n.attributes["points"]))
      case Some(points) =>
        FlattenPair(points);
        Ok(Flatten(points))
  }

  // ----- stop -----

  /** The initial value of `stop-color` (section 13.2.4 of SVG 1.1). */
  const Black: Color := Color(0.0, 0.0, 0.0, 1.0)

  /** The stop colour's text: `stop-color` wins over `color`. */
  function ColorText(n: Node): (r: Option<string>)
    ensures "stop-color" in n.attributes ==> r == Some(n.attributes["stop-color"])
    ensures "stop-color" !in n.attributes && "color" in n.attributes ==> r == Some(n.attributes["color"])
    ensures "stop-color" !in n.attributes && "color" !in n.attributes ==> r == None
  {
    if "stop-color" in n.attributes then Some(n.attributes["stop-color"])
    else if "color" in n.attributes then Some(n.attributes["color"])
    else None
  }

  /** The stop result: the offset is required, the colour is `stop-color`
      or else `color`, and `stop-opacity` replaces the colour's opacity. */
  function CreateStop(env: Env, n: Node): (r: Result<Stop, Error>)
    ensures "offset" !in n.attributes ==> r == Err(MissingAttribute("offset"))
    ensures r.Ok? ==> ParseDouble(env, n.attributes["offset"]) == Ok(r.value.offset)
    ensures r.Ok? && ColorText(n).Some? ==>
              env.parseColor(ColorText(n).value).Some?
              && r.value.color.(opacity := 0.0) == env.parseColor(ColorText(n).value).value.(opacity := 0.0)
    ensures r.Ok? && "stop-opacity" in n.attributes ==> ParseDouble(env, n.attributes["stop-opacity"]) == Ok(r.value.color.opacity)
    ensures ColorText(n).Some? && env.parseColor(ColorText(n).value).None? ==> r.Err?
    ensures "stop-opacity" in n.attributes && env.parseNumber(n.attributes["stop-opacity"]).None? ==> r.Err?
  {
    var offset :- RequiredNumber(env, n, "offset");
    var color :- match ColorText(n)
      case None => Ok(Black)
      case Some(text) => (match env.parseColor(text)
        case None => Err(InvalidColor(text))
        case Some(c) => Ok(c));
    var opacity :- ValueOrDefault(env, n, "stop-opacity", color.opacity);
    Ok(Stop(offset, color.(opacity := opacity)))
  }

  /** With `stop-color` present, the `color` attribute does not change the
      stop at all, whatever it holds. */
  lemma StopColorWins(env: Env, n: Node, color: string)
    requires "stop-color" in n.attributes
    ensures CreateStop(env, n) == CreateStop(env, n.(attributes := n.attributes["color" := color]))
  {
    var m := n.(attributes := n.attributes["color" := color]);
    assert ColorText(m) == ColorText(n);
  }

  // ----- linear gradient -----

  datatype GradientUnits = ObjectBoundingBox | UserSpaceOnUse
  datatype CycleMethod = NoCycle | Reflect | Repeat

  datatype LinearGradient = LinearGradient(startX: real, startY: real, endX: real, endY: real,
                                           cycleMethod: CycleMethod, stops: seq<Stop>)

  /** `gradientUnits`: the default is `objectBoundingBox`. */
  function Units(n: Node): (r: Result<GradientUnits, Error>)
    ensures "gradientUnits" !in n.attributes ==> r == Ok(ObjectBoundingBox)
    ensures r == Ok(UserSpaceOnUse) <==> "gradientUnits" in n.attributes && n.attributes["gradientUnits"] == "userSpaceOnUse"
  {
    if "gradientUnits" !in n.attributes then Ok(ObjectBoundingBox)
    else match n.attributes["gradientUnits"]
      case "objectBoundingBox" => Ok(ObjectBoundingBox)
      case "userSpaceOnUse" => Ok(UserSpaceOnUse)
      case other => Err(NoEnumConstant(other))
  }

  /** `spreadMethod`: the default is `pad`, which JavaFX calls NO_CYCLE. */
  function Spread(n: Node): (r: Result<CycleMethod, Error>)
    ensures "spreadMethod" !in n.attributes ==> r == Ok(NoCycle)
    ensures r == Ok(Repeat) <==> "spreadMethod" in n.attributes && n.attributes["spreadMethod"] == "repeat"
    ensures r == Ok(Reflect) <==> "spreadMethod" in n.attributes && n.attributes["spreadMethod"] == "reflect"
  {
    if "spreadMethod" !in n.attributes then Ok(NoCycle)
    else match n.attributes["spreadMethod"]
      case "pad" => Ok(NoCycle)
      case "reflect" => Ok(Reflect)
      case "repeat" => Ok(Repeat)
      case other => Err(NoEnumConstant(other))
  }

  /** `(v - min) / (max - min)` on one axis of a box of non-zero extent. */
  function Fraction(v: real, min: real, extent: real): (r: real)
    requires extent != 0.0
    ensures min + r * extent == v
  {
    (v - min) / extent
  }

  /** The ends of the axis map to 0 and 1. */
  lemma FractionEnds(min: real, extent: real)
    requires extent != 0.0
    ensures Fraction(min, min, extent) == 0.0
    ensures Fraction(min + extent, min, extent) == 1.0
  {
    assert (min + extent - min) / extent == extent / extent == 1.0;
  }

  /** The linear gradient of a node: the unit check comes first (user space
      needs a shape to measure), then the stops, which must not be empty,
      then the coordinates and the spread method; in user space each
      coordinate is placed relative to the shape's bounding box. */
  function CreateLinearGradient(env: Env, n: Node, stops: Result<seq<Stop>, Error>, shape: Option<Rect>): (r: Result<LinearGradient, Error>)
    ensures Units(n) == Ok(UserSpaceOnUse) && shape.None? ==> r == Err(MissingElement)
    ensures Units(n).Ok? && !(Units(n) == Ok(UserSpaceOnUse) && shape.None?) && stops == Ok([]) ==> r == Err(MissingStops)
    ensures r.Ok? ==> stops.Ok? && r.value.stops == stops.value != []
    ensures r.Ok? ==> Spread(n) == Ok(r.value.cycleMethod)
    ensures r.Ok? && Units(n) == Ok(ObjectBoundingBox) ==>
              NumberOrDefault(env, n, "x1", 0.0) == Ok(r.value.startX) && NumberOrDefault(env, n, "y1", 0.0) == Ok(r.value.startY)
              && NumberOrDefault(env, n, "x2", 1.0) == Ok(r.value.endX) && NumberOrDefault(env, n, "y2", 0.0) == Ok(r.value.endY)
    ensures r.Ok? && Units(n) == Ok(UserSpaceOnUse) ==>
              shape.Some? && NumberOrDefault(env, n, "x1", 0.0).Ok? && NumberOrDefault(env, n, "y1", 0.0).Ok?
              && NumberOrDefault(env, n, "x2", 1.0).Ok? && NumberOrDefault(env, n, "y2", 0.0).Ok?
    ensures r.Ok? && Units(n) == Ok(UserSpaceOnUse) ==>
              var box := shape.value;
              && box.minX + r.value.startX * box.width == NumberOrDefault(env, n, "x1", 0.0).value
              && box.minY + r.value.startY * box.height == NumberOrDefault(env, n, "y1", 0.0).value
              && box.minX + r.value.endX * box.width == NumberOrDefault(env, n, "x2", 1.0).value
              && box.minY + r.value.endY * box.height == NumberOrDefault(env, n, "y2", 0.0).value
  {
    var units :- Units(n);
    if units == UserSpaceOnUse && shape.None? then Err(MissingElement)
    else
      var stopList :- stops;
      if stopList == [] then Err(MissingStops)
      else
        var x1 :- NumberOrDefault(env, n, "x1", 0.0);
        var y1 :- NumberOrDefault(env, n, "y1", 0.0);
        var x2 :- NumberOrDefault(env, n, "x2", 1.0);
        var y2 :- NumberOrDefault(env, n, "y2", 0.0);
        var cycle :- Spread(n);
        var g := LinearGradient(x1, y1, x2, y2, cycle, stopList);
        if units == ObjectBoundingBox then Ok(g)
        else Place(g, shape.value)
  }

  /** Places the gradient's coordinates relative to the box, axis by axis. */
  function Place(g: LinearGradient, box: Rect): (r: Result<LinearGradient, Error>)
    ensures r.Err? <==> box.width == 0.0 || box.height == 0.0
    ensures r.Ok? ==> r.value.cycleMethod == g.cycleMethod && r.value.stops == g.stops
    ensures r.Ok? ==> box.minX + r.value.startX * box.width == g.startX && box.minY + r.value.startY * box.height == g.startY
    ensures r.Ok? ==> box.minX + r.value.endX * box.width == g.endX && box.minY + r.value.endY * box.height == g.endY
  {
    if box.width == 0.0 || box.height == 0.0 then Err(DegenerateBounds)
    else Ok(LinearGradient(Fraction(g.startX, box.minX, box.width), Fraction(g.startY, box.minY, box.height),
                           Fraction(g.endX, box.minX, box.width), Fraction(g.endY, box.minY, box.height),
                           g.cycleMethod, g.stops))
  }
}

=== FILE: svg_element.dfy ===
/** What `SVGElementBase` derives from an element's attributes before it builds
    a result: the CSS style (presentation attributes, inline `style`, class
    reference), the style with inheritance resolved along the parent chain,
    the transformation and the clip path. */
module SvgElement {
  import opened Wrappers
  import opened Failures
  import opened Text
  import opened Environment
  import opened Documents
  import Transforms
  import AttributeValues

  const StyleAttribute: string := "style"
  const ClassAttribute: string := "class"
  const TransformAttribute: string := "transform"
  const ClipPathProperty: string := "clip-path"

  /** `higher.combineWithStyle(lower)`: `higher` keeps every entry it has and
      takes the entries it lacks from `lower`. */
  function Merge(higher: Style, lower: Style): (r: Style)
    ensures r.Keys == higher.Keys + lower.Keys
    ensures forall k :: k in higher ==> r[k] == higher[k]
    ensures forall k :: k in lower && k !in higher ==> r[k] == lower[k]
  {
    lower + higher
  }

  // ----- presentation attributes -----

  /** The declaration `name:data;` of one presentation attribute, or nothing
      when the attribute is null or empty. */
  function Declaration(n: Node, name: string): string {
    if HasText(n, name) then name + ":" + n.attributes[name] + ";" else ""
  }

  /** The declarations of all presentation attributes present, in enumeration order. */
  function Declarations(n: Node, names: seq<string>): string {
    if names == [] then "" else Declaration(n, names[0]) + Declarations(n, names[1..])
  }

  /** There is no declaration text exactly when no presentation attribute is present. */
  lemma {:induction false} DeclarationsEmpty(n: Node, names: seq<string>)
    ensures Declarations(n, names) == "" <==> forall i :: 0 <= i < |names| ==> !HasText(n, names[i])
    decreases |names|
  {
    if names != [] {
      DeclarationsEmpty(n, names[1..]);
      assert forall i :: 1 <= i < |names| ==> names[1..][i - 1] == names[i];
      if HasText(n, names[0]) {
        assert |Declaration(n, names[0])| > 0;
      }
    }
  }

  /** `getPresentationCssStyle`: `null` without any presentation attribute,
      otherwise the rule `presentationStyle{...}` built from them. */
  function PresentationStyle(env: Env, n: Node): (r: Option<Style>)
    ensures r.None? <==> forall i :: 0 <= i < |env.presentationNames| ==> !HasText(n, env.presentationNames[i])
  {
    DeclarationsEmpty(n, env.presentationNames);
    var d := Declarations(n, env.presentationNames);
    if d == "" then None else Some(env.parseCss("presentationStyle{" + d + "}"))
  }

  // ----- inline style -----

  /** The inline declarations with a `;` appended only when the text lacks one. */
  function Terminated(text: string): (r: string)
    ensures EndsWith(r, ";")
    ensures r == text <==> EndsWith(text, ";")
    ensures r == text || r == text + ";"
  {
    if EndsWith(text, ";") then text else text + ";"
  }

  /** Terminating twice changes nothing. */
  lemma TerminatedIdempotent(text: string)
    ensures Terminated(Terminated(text)) == Terminated(text)
  {
  }

  /** `getOwnStyle`: `null` when the `style` attribute is null or empty,
      otherwise the rule `ownStyle{...;}` built from it. */
  function OwnStyle(env: Env, n: Node): (r: Option<Style>)
    ensures r.None? <==> !HasText(n, StyleAttribute)
    ensures r.Some? ==> r.value == env.parseCss("ownStyle{" + Terminated(n.attributes[StyleAttribute]) + "}")
  {
    if !HasText(n, StyleAttribute) then None
    else Some(env.parseCss("ownStyle{" + Terminated(n.attributes[StyleAttribute]) + "}"))
  }

  // ----- class reference -----

  /** The first registered style whose name ends with `reference`. */
  function FindStyle(styles: seq<NamedStyle>, reference: string): (r: Option<nat>)
    ensures r.Some? ==> r.value < |styles| && EndsWith(styles[r.value].name, reference)
    ensures r.Some? ==> forall j :: 0 <= j < r.value ==> !EndsWith(styles[j].name, reference)
    ensures r.None? ==> forall j :: 0 <= j < |styles| ==> !EndsWith(styles[j].name, reference)
  {
    if styles == [] then None
    else if EndsWith(styles[0].name, reference) then Some(0)
    else match FindStyle(styles[1..], reference)
      case None => None
      case Some(i) => Some(i + 1)
  }

  /** `getReferencedStyle`: `null` without a class, otherwise the first
      registered style whose name ends with the class; a failed lookup throws
      an exception naming the reference. */
  function ReferencedStyle(styles: seq<NamedStyle>, n: Node): (r: Result<Option<Style>, Error>)
    ensures !HasText(n, ClassAttribute) ==> r == Ok(None)
    ensures HasText(n, ClassAttribute) ==>
              var reference := n.attributes[ClassAttribute];
              (r.Err? <==> forall j :: 0 <= j < |styles| ==> !EndsWith(styles[j].name, reference))
              && (r.Err? ==> r.error == StyleReferenceNotFound(reference))
              && (r.Ok? ==> exists i :: 0 <= i < |styles| && EndsWith(styles[i].name, reference)
                                        && (forall j :: 0 <= j < i ==> !EndsWith(styles[j].name, reference))
                                        && r.value == Some(styles[i].style))
  {
    if !HasText(n, ClassAttribute) then Ok(None)
    else
      var reference := n.attributes[ClassAttribute];
      match FindStyle(styles, reference)
      case None => Err(StyleReferenceNotFound(reference))
      case Some(i) => Ok(Some(styles[i].style))
  }

  // ----- the three layers -----

  /** `layer` combined under `style`, or `layer` alone when there is no style yet. */
  function Underlay(style: Option<Style>, layer: Option<Style>): Option<Style> {
    match layer
    case None => style
    case Some(l) => match style
      case None => Some(l)
      case Some(s) => Some(Merge(s, l))
  }

  /** The body of `getCssStyle` once the three layers are known. */
  function Layered(presentation: Option<Style>, own: Option<Style>, referenced: Option<Style>): Style {
    Underlay(Underlay(presentation, own), referenced).GetOr(map[])
  }

  /** The first layer, in precedence order, that has an entry for `key`. */
  function FirstLayer(layers: seq<Option<Style>>, key: string): (r: Option<string>)
    ensures r.Some? ==> exists i :: 0 <= i < |layers| && layers[i].Some? && key in layers[i].value && r.value == layers[i].value[key]
    ensures r.None? ==> forall i :: 0 <= i < |layers| && layers[i].Some? ==> key !in layers[i].value
  {
    if layers == [] then None
    else if layers[0].Some? && key in layers[0].value then Some(layers[0].value[key])
    else FirstLayer(layers[1..], key)
  }

  /** Precedence of the cascade: an entry of the combined style comes from the
      presentation attributes if they have it, else from the inline style, else
      from the class style; and nothing else is in it. */
  lemma LayeredPrecedence(presentation: Option<Style>, own: Option<Style>, referenced: Option<Style>, key: string)
    ensures key in Layered(presentation, own, referenced) <==> FirstLayer([presentation, own, referenced], key).Some?
    ensures key in Layered(presentation, own, referenced) ==>
              Layered(presentation, own, referenced)[key] == FirstLayer([presentation, own, referenced], key).value
  {
    assert FirstLayer([referenced], key) == (if referenced.Some? && key in referenced.value then Some(referenced.value[key]) else None) by {
      assert [referenced][1..] == [];
    }
    assert [own, referenced][1..] == [referenced];
    assert [presentation, own, referenced][1..] == [own, referenced];
  }

  /** With no layer at all the style is empty, never absent. */
  lemma NoLayersEmpty()
    ensures Layered(None, None, None) == map[]
  {
  }

  /** `getCssStyle`: only the class lookup can fail; otherwise the three layers
      are combined in precedence order. */
  function CssStyle(env: Env, styles: seq<NamedStyle>, n: Node): (r: Result<Style, Error>)
    ensures r.Err? <==> ReferencedStyle(styles, n).Err?
    ensures r.Ok? ==> forall key :: key in r.value ==>
              FirstLayer([PresentationStyle(env, n), OwnStyle(env, n), ReferencedStyle(styles, n).value], key) == Some(r.value[key])
    ensures r.Ok? ==> forall key :: key !in r.value ==>
              FirstLayer([PresentationStyle(env, n), OwnStyle(env, n), ReferencedStyle(styles, n).value], key).None?
  {
    var referenced :- ReferencedStyle(styles, n);
    var s := Layered(PresentationStyle(env, n), OwnStyle(env, n), referenced);
    forall key ensures key in s ==> FirstLayer([PresentationStyle(env, n), OwnStyle(env, n), referenced], key) == Some(s[key]) {
      LayeredPrecedence(PresentationStyle(env, n), OwnStyle(env, n), referenced, key);
    }
    forall key ensures key !in s ==> FirstLayer([PresentationStyle(env, n), OwnStyle(env, n), referenced], key).None? {
      LayeredPrecedence(PresentationStyle(env, n), OwnStyle(env, n), referenced, key);
    }
    Ok(s)
  }

  // ----- inheritance -----

  /** `combineStylesAndResolveInheritance(style, parentStyle)`: an entry of
      the element's own that is not `inherit` stays; an `inherit` entry or a
      missing one takes the parent's entry; an `inherit` entry the parent
      cannot resolve stays `inherit`, which stands for the type's default. */
  function Inherit(own: Style, parent: Style): (r: Style)
    ensures r.Keys == own.Keys + parent.Keys
  {
    map k | k in own.Keys + parent.Keys ::
      if k in own && own[k] != AttributeValues.InheritIndicator then own[k]
      else if k in parent then parent[k]
      else own[k]
  }

  /** `getCssStyleAndResolveInheritance`: the element's style, then, if it
      has a parent, the parent's resolved style merged in. */
  function Resolved(doc: Doc, env: Env, id: nat): Result<Style, Error>
    requires WellFormed(doc) && id < |doc.nodes|
    decreases id
  {
    var own :- CssStyle(env, doc.styles, doc.nodes[id]);
    match doc.nodes[id].parent
    case None => Ok(own)
    case Some(p) =>
      var inherited :- Resolved(doc, env, p);
      Ok(Inherit(own, inherited))
  }

  /** Without a parent the resolved style is the element's own style. */
  lemma ResolvedWithoutParent(doc: Doc, env: Env, id: nat)
    requires WellFormed(doc) && id < |doc.nodes| && doc.nodes[id].parent.None?
    ensures Resolved(doc, env, id) == CssStyle(env, doc.styles, doc.nodes[id])
  {
  }

  /** The element's own style, empty where its class lookup fails. */
  function OwnOf(doc: Doc, env: Env, id: nat): Style
    requires id < |doc.nodes|
  {
    match CssStyle(env, doc.styles, doc.nodes[id])
    case Ok(s) => s
    case Err(_) => map[]
  }

  /** `id` is `a` or lies below `a` on the parent chain. */
  predicate IsAncestor(doc: Doc, a: nat, id: nat)
    requires WellFormed(doc) && id < |doc.nodes|
    decreases id
  {
    a == id || (doc.nodes[id].parent.Some? && IsAncestor(doc, a, doc.nodes[id].parent.value))
  }

  /** The nearest element on the chain from `id` upwards whose own style
      declares `key` with a value other than `inherit`. */
  function Nearest(doc: Doc, env: Env, id: nat, key: string): (r: Option<nat>)
    requires WellFormed(doc) && id < |doc.nodes|
    ensures r.Some? ==> r.value <= id && IsAncestor(doc, r.value, id)
    ensures r.Some? ==> key in OwnOf(doc, env, r.value) && OwnOf(doc, env, r.value)[key] != AttributeValues.InheritIndicator
    decreases id
  {
    var own := OwnOf(doc, env, id);
    if key in own && own[key] != AttributeValues.InheritIndicator then Some(id)
    else match doc.nodes[id].parent
      case None => None
      case Some(p) => Nearest(doc, env, p, key)
  }

  /** Some element on the chain from `id` upwards has an entry for `key`. */
  predicate DeclaredOnChain(doc: Doc, env: Env, id: nat, key: string)
    requires WellFormed(doc) && id < |doc.nodes|
    decreases id
  {
    key in OwnOf(doc, env, id)
    || (doc.nodes[id].parent.Some? && DeclaredOnChain(doc, env, doc.nodes[id].parent.value, key))
  }

  /** Inheritance along the whole chain: the resolved style has an entry for
      exactly the keys some element on the chain declares; its value is that of
      the nearest element declaring it with a value other than `inherit`, and
      `inherit` (the type default) when there is none. */
  lemma {:induction false} ResolvedInheritance(doc: Doc, env: Env, id: nat, key: string)
    requires WellFormed(doc) && id < |doc.nodes|
    requires Resolved(doc, env, id).Ok?
    ensures key in Resolved(doc, env, id).value <==> DeclaredOnChain(doc, env, id, key)
    ensures Nearest(doc, env, id, key).Some? ==>
              key in Resolved(doc, env, id).value &&
              Resolved(doc, env, id).value[key] == OwnOf(doc, env, Nearest(doc, env, id, key).value)[key]
    ensures Nearest(doc, env, id, key).None? && key in Resolved(doc, env, id).value ==>
              Resolved(doc, env, id).value[key] == AttributeValues.InheritIndicator
    decreases id
  {
    var own := OwnOf(doc, env, id);
    assert CssStyle(env, doc.styles, doc.nodes[id]) == Ok(own);
    match doc.nodes[id].parent
    case None =>
      assert Resolved(doc, env, id) == Ok(own);
    case Some(p) =>
      var inherited := Resolved(doc, env, p).value;
      assert Resolved(doc, env, id) == Ok(Inherit(own, inherited));
      ResolvedInheritance(doc, env, p, key);
  }

  // ----- transformation and clip path -----

  /** `getTransformation`: no transform without a non-empty `transform`
      attribute, otherwise the parsed transform list. */
  function Transformation(env: Env, n: Node): (r: Result<Option<seq<Transforms.Primitive>>, Error>)
    ensures !HasText(n, TransformAttribute) ==> r == Ok(None)
    ensures r.Ok? && r.value.Some? ==> HasText(n, TransformAttribute) && r.value.value != []
  {
    if HasText(n, TransformAttribute) then Transforms.GetTransform(n.attributes[TransformAttribute], env)
    else Ok(None)
  }

  /** The `clip-path` entry of a style when it holds a reference: present,
      not empty, and neither `inherit` nor `none`, whose value is the string
      type's empty default because the type never parses a keyword. */
  function ClipReference(style: Style): (r: Option<string>)
    ensures r.Some? <==> ClipPathProperty in style && style[ClipPathProperty] != ""
                         && style[ClipPathProperty] != AttributeValues.InheritIndicator
                         && style[ClipPathProperty] != AttributeValues.NoneIndicator
    ensures r.Some? ==> r.value == style[ClipPathProperty]
  {
    if ClipPathProperty in style && style[ClipPathProperty] != ""
       && style[ClipPathProperty] != AttributeValues.InheritIndicator
       && style[ClipPathProperty] != AttributeValues.NoneIndicator
    then Some(style[ClipPathProperty])
    else None
  }

  /** `SVGUtils.resolveIRI(reference, dataProvider, SVGClipPath.class)`: null
      for a text the IRI parser finds no id in, the clip path element the id
      names, and an exception for an id that names no clip path. */
  function ResolveClipPath(doc: Doc, env: Env, reference: string): (r: Result<Option<nat>, Error>)
    requires WellFormed(doc)
    ensures r == Ok(None) <==> env.iriId(reference).None?
    ensures r.Ok? && r.value.Some? ==>
              env.iriId(reference).Some? && env.iriId(reference).value in doc.ids
              && r.value.value == doc.ids[env.iriId(reference).value]
              && r.value.value < |doc.nodes| && doc.nodes[r.value.value].kind == ClipPathKind
    ensures r.Err? <==> env.iriId(reference).Some?
                         && (env.iriId(reference).value !in doc.ids
                             || doc.nodes[doc.ids[env.iriId(reference).value]].kind != ClipPathKind)
    ensures r.Err? ==> r.error == UnresolvedReference(reference)
  {
    match env.iriId(reference)
    case None => Ok(None)
    case Some(name) =>
      if name in doc.ids && doc.nodes[doc.ids[name]].kind == ClipPathKind then Ok(Some(doc.ids[name]))
      else Err(UnresolvedReference(reference))
  }

  /** `getClipPath(style)`: no clip path without a reference in the
      `clip-path` entry, nor when the reference resolves to nothing or names
      the element itself; a reference to a missing clip path throws. The
      answer is the clip path element, whose result is the node to clip
      with. */
  function ClipPath(doc: Doc, env: Env, id: nat, style: Style): (r: Result<Option<nat>, Error>)
    requires WellFormed(doc) && id < |doc.nodes|
    ensures ClipReference(style).None? ==> r == Ok(None)
    ensures r.Err? <==> ClipReference(style).Some? && ResolveClipPath(doc, env, style[ClipPathProperty]).Err?
    ensures r.Err? ==> r.error == UnresolvedReference(style[ClipPathProperty])
    ensures r.Ok? && r.value.Some? ==>
              r.value.value != id && ClipReference(style).Some?
              && ResolveClipPath(doc, env, style[ClipPathProperty]) == Ok(r.value)
  {
    match ClipReference(style)
    case None => Ok(None)
    case Some(reference) =>
      var found :- ResolveClipPath(doc, env, reference);
      if found == Some(id) then Ok(None) else Ok(found)
  }

  /** An element whose `transform` attribute is a written list of calls gets
      those calls' transforms, in order, or the first failing call's error. */
  lemma TransformationOfCalls(env: Env, n: Node, calls: seq<Transforms.Call>)
    requires calls != [] && Transforms.Closed(calls)
    requires TransformAttribute in n.attributes && n.attributes[TransformAttribute] == Transforms.Render(calls)
    ensures Transformation(env, n) ==
              match Transforms.ParseCalls(calls, env)
              case Ok(ps) => Ok(Some(ps))
              case Err(e) => Err(e)
  {
    Transforms.RenderedTransform(calls, env);
    assert |Transforms.Render(calls)| > 0 by { assert |Transforms.CallText(calls[0])| > 0; }
  }

  /** The keywords `none` and `inherit` never name a clip path, whatever the
      IRI parser makes of them. */
  lemma KeywordClipIgnored(doc: Doc, env: Env, id: nat, style: Style)
    requires WellFormed(doc) && id < |doc.nodes|
    requires ClipPathProperty in style
    requires style[ClipPathProperty] == AttributeValues.NoneIndicator
             || style[ClipPathProperty] == AttributeValues.InheritIndicator
    ensures ClipPath(doc, env, id, style) == Ok(None)
  {
  }

  /** A clip path that refers to itself is not applied: this is what keeps a
      self-referencing clip path from recursing forever. */
  lemma SelfClipIgnored(doc: Doc, env: Env, id: nat, style: Style)
    requires WellFormed(doc) && id < |doc.nodes|
    requires ClipReference(style).Some? && ResolveClipPath(doc, env, style[ClipPathProperty]) == Ok(Some(id))
    ensures ClipPath(doc, env, id, style) == Ok(None)
  {
  }

  /** `getClipPath()`: the clip path of the element's resolved style. */
  function ElementClipPath(doc: Doc, env: Env, id: nat): Result<Option<nat>, Error>
    requires WellFormed(doc) && id < |doc.nodes|
  {
    var style :- Resolved(doc, env, id);
    ClipPath(doc, env, id, style)
  }
}

=== FILE: text.dfy ===
/** The handful of `java.lang.String` operations the core relies on, over `seq<char>`. */
module Text {

  /** `String.trim()` removes every leading and trailing character whose code is at most U+0020. */
  predicate IsTrimmable(c: char) {
    c <= ' '
  }

  function TrimStart(s: string): (r: string)
    ensures |r| <= |s| && r == s[|s| - |r|..]
    ensures r == [] || !IsTrimmable(r[0])
    ensures forall i :: 0 <= i < |s| - |r| ==> IsTrimmable(s[i])
  {
    if s != [] && IsTrimmable(s[0]) then TrimStart(s[1..]) else s
  }

  function TrimEnd(s: string): (r: string)
    ensures |r| <= |s| && r == s[..|r|]
    ensures r == [] || !IsTrimmable(r[|r| - 1])
    ensures forall i :: |r| <= i < |s| ==> IsTrimmable(s[i])
  {
    if s != [] && IsTrimmable(s[|s| - 1]) then TrimEnd(s[..|s| - 1]) else s
  }

  function Trim(s: string): (r: string)
    ensures r == [] || (!IsTrimmable(r[0]) && !IsTrimmable(r[|r| - 1]))
    ensures exists i, j :: 0 <= i <= j <= |s| && r == s[i..j]
  {
    var t := TrimStart(s);
    var r := TrimEnd(t);
    assert r == s[|s| - |t|..|s| - |t| + |r|];
    r
  }

  /** Trimming text padded with trimmable characters gives back the text between the pads,
      when that text neither starts nor ends with a trimmable character. */
  lemma TrimPadded(a: string, x: string, b: string)
    requires forall i :: 0 <= i < |a| ==> IsTrimmable(a[i])
    requires forall i :: 0 <= i < |b| ==> IsTrimmable(b[i])
    requires x != [] && !IsTrimmable(x[0]) && !IsTrimmable(x[|x| - 1])
    ensures Trim(a + x + b) == x
  {
    assert a + x + b == a + (x + b);
    TrimStartPadded(a, x + b);
    TrimEndPadded(x, b);
  }

  lemma {:induction false} TrimStartPadded(a: string, y: string)
    requires forall i :: 0 <= i < |a| ==> IsTrimmable(a[i])
    requires y == [] || !IsTrimmable(y[0])
    ensures TrimStart(a + y) == y
  {
    if a != [] {
      assert (a + y)[1..] == a[1..] + y;
      TrimStartPadded(a[1..], y);
    }
  }

  lemma {:induction false} TrimEndPadded(y: string, b: string)
    requires forall i :: 0 <= i < |b| ==> IsTrimmable(b[i])
    requires y == [] || !IsTrimmable(y[|y| - 1])
    ensures TrimEnd(y + b) == y
    decreases |b|
  {
    if b != [] {
      assert (y + b)[..|y + b| - 1] == y + b[..|b| - 1];
      TrimEndPadded(y, b[..|b| - 1]);
    } else {
      assert y + b == y;
    }
  }

  /** `s.startsWith(prefix, offset)`. */
  predicate StartsWithAt(s: string, prefix: string, offset: nat) {
    offset + |prefix| <= |s| && s[offset..offset + |prefix|] == prefix
  }

  /** `s.endsWith(suffix)`. */
  predicate EndsWith(s: string, suffix: string) {
    |suffix| <= |s| && s[|s| - |suffix|..] == suffix
  }

  /** `s.indexOf(c, from)`: the first position at or after `from` holding `c`, or -1. */
  function IndexOf(s: string, c: char, from: nat): (r: int)
    decreases |s| - from
    ensures r == -1 || (from <= r < |s| && s[r] == c)
    ensures r == -1 ==> forall j :: from <= j < |s| ==> s[j] != c
    ensures r != -1 ==> forall j :: from <= j < r ==> s[j] != c
  {
    if from >= |s| then -1
    else if s[from] == c then from
    else IndexOf(s, c, from + 1)
  }

  /** `s.replaceFirst("c", "")` for a character that is not special in a regular expression. */
  function RemoveFirst(s: string, c: char): (r: string)
    ensures c !in s ==> r == s
    ensures c in s ==> exists i :: 0 <= i < |s| && s[i] == c && c !in s[..i] && r == s[..i] + s[i + 1..]
  {
    var i := IndexOf(s, c, 0);
    if i < 0 then s else s[..i] + s[i + 1..]
  }

  function UpperChar(c: char): char {
    if 'a' <= c <= 'z' then (c as int - 'a' as int + 'A' as int) as char else c
  }

  function LowerChar(c: char): char {
    if 'A' <= c <= 'Z' then (c as int - 'A' as int + 'a' as int) as char else c
  }

  /** `String.toUpperCase()` restricted to the ASCII letters. */
  function Upper(s: string): (r: string)
    ensures |r| == |s| && forall i :: 0 <= i < |s| ==> r[i] == UpperChar(s[i])
  {
    seq(|s|, i requires 0 <= i < |s| => UpperChar(s[i]))
  }

  /** `String.toLowerCase()` restricted to the ASCII letters. */
  function Lower(s: string): (r: string)
    ensures |r| == |s| && forall i :: 0 <= i < |s| ==> r[i] == LowerChar(s[i])
  {
    seq(|s|, i requires 0 <= i < |s| => LowerChar(s[i]))
  }
}

=== FILE: transform.dfy ===
/** The `transform` attribute type: a list of `name(args)` functions, each turned
    into a JavaFX transform and concatenated in order. */
module Transforms {
  import opened Wrappers
  import opened Failures
  import opened Text
  import opened Environment

  /** The JavaFX transforms the parser creates. `Affine` takes its arguments in JavaFX
      order: the first row (mxx, mxy, tx), then the second (myx, myy, ty). */
  datatype Primitive =
    | Affine(mxx: real, mxy: real, tx: real, myx: real, myy: real, ty: real)
    | Translate(x: real, y: real)
    | Scale(x: real, y: real)
    | Rotate(angle: real, pivotX: real, pivotY: real)
    | Shear(x: real, y: real)

  /** The transform functions of the attribute, without the `NONE` placeholder. */
  datatype MatrixKind = MatrixFn | TranslateFn | ScaleFn | RotateFn | SkewXFn | SkewYFn

  /** The kinds in declaration order, the order in which the scan tries them. */
  const Kinds: seq<MatrixKind> := [MatrixFn, TranslateFn, ScaleFn, RotateFn, SkewXFn, SkewYFn]

  function Name(k: MatrixKind): string {
    match k
    case MatrixFn => "matrix"
    case TranslateFn => "translate"
    case ScaleFn => "scale"
    case RotateFn => "rotate"
    case SkewXFn => "skewX"
    case SkewYFn => "skewY"
  }

  /** No function name is a prefix of another, so at most one kind matches at a position
      and the order in which the kinds are tried does not matter. */
  lemma NamesPrefixFree(data: string, i: nat, k1: MatrixKind, k2: MatrixKind)
    requires StartsWithAt(data, Name(k1), i) && StartsWithAt(data, Name(k2), i)
    ensures k1 == k2
  {
    assert data[i..i + |Name(k1)|] == Name(k1);
    assert data[i..i + |Name(k2)|] == Name(k2);
    assert data[i] == Name(k1)[0] == Name(k2)[0];
    assert data[i + 1] == Name(k1)[1] == Name(k2)[1];
    if |Name(k1)| == 5 && |Name(k2)| == 5 {
      assert data[i + 4] == Name(k1)[4] == Name(k2)[4];
    }
  }

  /** `name` occurs in `data` at position `i`, compared character by character. */
  predicate NameAt(data: string, i: nat, name: string)
    decreases |name|
  {
    if name == [] then i <= |data| else i < |data| && data[i] == name[0] && NameAt(data, i + 1, name[1..])
  }

  /** The character comparison is `startsWith(name, i)`. */
  lemma {:induction false} NameAtStartsWith(data: string, i: nat, name: string)
    ensures NameAt(data, i, name) <==> StartsWithAt(data, name, i)
    decreases |name|
  {
    if name != [] {
      NameAtStartsWith(data, i + 1, name[1..]);
      var tail := name[1..];
      if i + |name| <= |data| {
        var w := data[i..i + |name|];
        assert w[1..] == data[i + 1..i + 1 + |tail|];
        if NameAt(data, i, name) {
          assert w == [w[0]] + w[1..] == [name[0]] + tail == name;
        }
        if StartsWithAt(data, name, i) {
          assert w[0] == name[0] && w[1..] == tail;
        }
      }
    }
  }

  /** The first kind, in declaration order, whose name starts at position `i`. */
  function FirstMatch(data: string, i: nat, kinds: seq<MatrixKind>): Option<MatrixKind> {
    if kinds == [] then None
    else if NameAt(data, i, Name(kinds[0])) then Some(kinds[0])
    else FirstMatch(data, i, kinds[1..])
  }

  /** The kind found is one whose name starts at `i`; none found means no name starts there. */
  lemma {:induction false} FirstMatchFound(data: string, i: nat, kinds: seq<MatrixKind>)
    ensures var r := FirstMatch(data, i, kinds);
            r.Some? ==> r.value in kinds && StartsWithAt(data, Name(r.value), i)
    ensures FirstMatch(data, i, kinds).None? ==> forall k :: k in kinds ==> !StartsWithAt(data, Name(k), i)
  {
    if kinds != [] {
      NameAtStartsWith(data, i, Name(kinds[0]));
    }
    if kinds != [] && !StartsWithAt(data, Name(kinds[0]), i) {
      FirstMatchFound(data, i, kinds[1..]);
      assert forall k :: k in kinds ==> k == kinds[0] || k in kinds[1..];
    }
  }

  /** The kinds that take 1, 2, 3 or 6 values. */
  function Arity(k: MatrixKind): set<nat> {
    match k
    case MatrixFn => {6}
    case TranslateFn => {1, 2}
    case ScaleFn => {1, 2}
    case RotateFn => {1, 3}
    case SkewXFn => {1}
    case SkewYFn => {1}
  }

  /** The transform an argument list denotes, as the SVG transform grammar lays it out:
      `matrix(a b c d e f)` is the matrix with first row (a, c, e) and second row
      (b, d, f); a missing second scale or translate value repeats the first; a
      rotation without a pivot turns about the origin. */
  function Meaning(k: MatrixKind, v: seq<real>): Primitive
    requires |v| in Arity(k)
  {
    match k
    case MatrixFn => Affine(v[0], v[2], v[4], v[1], v[3], v[5])
    case TranslateFn => Translate(v[0], if |v| == 2 then v[1] else v[0])
    case ScaleFn => Scale(v[0], if |v| == 2 then v[1] else v[0])
    case RotateFn => if |v| == 3 then Rotate(v[0], v[1], v[2]) else Rotate(v[0], 0.0, 0.0)
    case SkewXFn => Shear(v[0], 0.0)
    case SkewYFn => Shear(0.0, v[0])
  }

  /** `Double.parseDouble(value.trim())` with its exception as an error. */
  function Number(value: string, env: Env): (r: Result<real, Error>)
    ensures r.Ok? <==> env.parseNumber(Trim(value)).Some?
    ensures r.Ok? ==> r.value == env.parseNumber(Trim(value)).value
    ensures r.Err? ==> r.error == InvalidNumberFormat(Trim(value))
  {
    match env.parseNumber(Trim(value))
    case Some(x) => Ok(x)
    case None => Err(InvalidNumberFormat(Trim(value)))
  }

  predicate AllNumbers(values: seq<string>, env: Env) {
    forall i :: 0 <= i < |values| ==> env.parseNumber(Trim(values[i])).Some?
  }

  function Numbers(values: seq<string>, env: Env): (r: seq<real>)
    requires AllNumbers(values, env)
    ensures |r| == |values|
    ensures forall i :: 0 <= i < |values| ==> Some(r[i]) == env.parseNumber(Trim(values[i]))
  {
    seq(|values|, i requires 0 <= i < |values| => env.parseNumber(Trim(values[i])).value)
  }

  /** The argument text after a leading `(` is dropped. (The source also tries to drop a
      trailing `)` but keeps the whole text: the scan never passes one.) */
  function Unparen(data: string): string {
    if data != [] && data[0] == '(' then data[1..] else data
  }

  /** An error the number parser raised on one of the values. */
  predicate IsNumberError(e: Error, values: seq<string>, env: Env) {
    exists i :: 0 <= i < |values| && env.parseNumber(Trim(values[i])).None? &&
                e == InvalidNumberFormat(Trim(values[i]))
  }

  /** The per-function parser: the text between a function's name and its `)`. Empty text
      is refused; the values are split at spaces and commas; their count must fit the
      kind, and each must be a number. The values are parsed in the order the source
      does (matrix 0, 2, 4, 1, 3, 5; rotate 1, 2, 0), which decides which error is raised. */
  function ParseFunction(k: MatrixKind, data: string, env: Env): (r: Result<Primitive, Error>)
    ensures data == [] ==> r == Err(NullArgument)
    ensures data == "(" ==> r == Err(IndexOutOfBounds)
    ensures data != [] && data != "(" && |env.splitValues(Unparen(data))| !in Arity(k) ==>
              r == Err(InvalidMatrixNumberOfElements(Name(k), |env.splitValues(Unparen(data))|))
  {
    if data == [] then Err(NullArgument)
    else
      var actual := Unparen(data);
      if actual == [] then Err(IndexOutOfBounds)
      else
        var values := env.splitValues(actual);
        if |values| !in Arity(k) then Err(InvalidMatrixNumberOfElements(Name(k), |values|))
        else
          var ps :- NumbersInOrder(values, SourceOrder(k, |values|), env);
          Ok(Meaning(k, ps))
  }

  /** With a fitting number of values, the function is the transform its numbers denote,
      or an error naming a value that is not a number. */
  lemma ParseFunctionValues(k: MatrixKind, data: string, env: Env)
    requires data != [] && data != "(" && |env.splitValues(Unparen(data))| in Arity(k)
    ensures var values := env.splitValues(Unparen(data));
            (AllNumbers(values, env) ==> ParseFunction(k, data, env) == Ok(Meaning(k, Numbers(values, env)))) &&
            (!AllNumbers(values, env) ==> ParseFunction(k, data, env).Err? &&
                                          IsNumberError(ParseFunction(k, data, env).error, values, env))
  {
    var values := env.splitValues(Unparen(data));
    var order := SourceOrder(k, |values|);
    var nums := NumbersInOrder(values, order, env);
    if nums.Ok? {
      NumbersInOrderAll(values, order, SourcePosition(k, |values|), env);
    } else {
      NumbersInOrderFails(values, order, env);
    }
  }

  /** The order in which the source parses the values of each kind. */
  function SourceOrder(k: MatrixKind, n: nat): (order: seq<nat>)
    requires n in Arity(k)
    ensures |order| == n && (forall j :: 0 <= j < n ==> order[j] < n)
  {
    match k
    case MatrixFn => [0, 2, 4, 1, 3, 5]
    case RotateFn => if n == 3 then [1, 2, 0] else [0]
    case _ => if n == 2 then [0, 1] else [0]
  }

  /** Where each value stands in the source order: the order visits every value. */
  function SourcePosition(k: MatrixKind, n: nat): (inv: seq<nat>)
    requires n in Arity(k)
    ensures |inv| == n
    ensures forall i :: 0 <= i < n ==> inv[i] < n && SourceOrder(k, n)[inv[i]] == i
  {
    match k
    case MatrixFn => [0, 3, 1, 4, 2, 5]
    case RotateFn => if n == 3 then [2, 0, 1] else [0]
    case _ => if n == 2 then [0, 1] else [0]
  }

  /** Parses the values at the positions `order` names, in that order, stopping at the
      first that is not a number; on success the numbers are returned by position. */
  function NumbersInOrder(values: seq<string>, order: seq<nat>, env: Env): (r: Result<seq<real>, Error>)
    requires forall j :: 0 <= j < |order| ==> order[j] < |values|
    ensures r.Ok? ==> |r.value| == |values|
  {
    if order == [] then Ok(seq(|values|, _ => 0.0))
    else
      var x :- Number(values[order[0]], env);
      var rest :- NumbersInOrder(values, order[1..], env);
      Ok(rest[order[0] := x])
  }

  /** A successful parse holds, at every position it visited, that value's number. */
  lemma {:induction false} NumbersInOrderOk(values: seq<string>, order: seq<nat>, env: Env)
    requires forall j :: 0 <= j < |order| ==> order[j] < |values|
    requires NumbersInOrder(values, order, env).Ok?
    ensures forall j :: 0 <= j < |order| ==>
              env.parseNumber(Trim(values[order[j]])) == Some(NumbersInOrder(values, order, env).value[order[j]])
  {
    if order != [] {
      NumbersInOrderOk(values, order[1..], env);
      var r := NumbersInOrder(values, order, env).value;
      var rest := NumbersInOrder(values, order[1..], env).value;
      var x := Number(values[order[0]], env).value;
      assert r == rest[order[0] := x];
      forall j | 0 <= j < |order|
        ensures env.parseNumber(Trim(values[order[j]])) == Some(r[order[j]])
      {
        if order[j] == order[0] {
          assert r[order[j]] == x;
        } else {
          assert order[j] == order[1..][j - 1];
          assert r[order[j]] == rest[order[j]];
        }
      }
    }
  }

  /** A failed parse names a value that is not a number. */
  lemma {:induction false} NumbersInOrderFails(values: seq<string>, order: seq<nat>, env: Env)
    requires forall j :: 0 <= j < |order| ==> order[j] < |values|
    requires NumbersInOrder(values, order, env).Err?
    ensures IsNumberError(NumbersInOrder(values, order, env).error, values, env)
  {
    if Number(values[order[0]], env).Ok? {
      NumbersInOrderFails(values, order[1..], env);
    }
  }

  /** When the positions cover every value, a successful parse makes all values numbers,
      and the numbers are exactly theirs. */
  lemma NumbersInOrderAll(values: seq<string>, order: seq<nat>, inv: seq<nat>, env: Env)
    requires forall j :: 0 <= j < |order| ==> order[j] < |values|
    requires |inv| == |values| && forall i :: 0 <= i < |values| ==> inv[i] < |order| && order[inv[i]] == i
    requires NumbersInOrder(values, order, env).Ok?
    ensures AllNumbers(values, env)
    ensures NumbersInOrder(values, order, env).value == Numbers(values, env)
  {
    NumbersInOrderOk(values, order, env);
    var r := NumbersInOrder(values, order, env).value;
    forall i | 0 <= i < |values|
      ensures env.parseNumber(Trim(values[i])) == Some(r[i])
    {
      assert order[inv[i]] == i;
    }
    var ns := Numbers(values, env);
    assert |ns| == |r|;
  }

  // ------------------------------------------------------------- the scan

  /** One function call of a transform list: a kind and its argument text. */
  datatype Call = Call(kind: MatrixKind, args: string)

  /** The calls the scan found, and whether it stopped at a name with no `)` after it. */
  datatype Split = Split(calls: seq<Call>, unclosed: bool)

  /** What the scan finds at position `i`: no function name; a name whose `)` is missing;
      or a call, whose arguments are the text from the one character after the name (skipped
      unseen) up to the next `)`, and the position just after that `)`. */
  datatype Step = Skip | Unclosed | Found(call: Call, resume: nat)

  function Next(data: string, i: nat): (r: Step)
    requires i < |data|
    ensures r.Found? ==> i < r.resume <= |data|
  {
    match FirstMatch(data, i, Kinds)
    case None => Skip
    case Some(k) =>
      var start := i + |Name(k)| + 1;
      var close := IndexOf(data, ')', start);
      if close < 0 then Unclosed
      else Found(Call(k, data[start..close]), close + 1)
  }

  /** The scan over the attribute text from position `i`: at each position the first
      function name found there takes the text up to the next `)` as its arguments, and
      the scan resumes after the `)`; positions where no name starts are skipped. A name
      with no `)` after it ends the scan: the source then takes `substring(start, -1)`,
      which throws. */
  function SplitCalls(data: string, i: nat, acc: seq<Call>): Split
    decreases |data| - i
  {
    if i >= |data| then Split(acc, false)
    else match Next(data, i)
      case Skip => SplitCalls(data, i + 1, acc)
      case Unclosed => Split(acc, true)
      case Found(c, resume) => SplitCalls(data, resume, acc + [c])
  }

  /** The calls parsed one by one, in order; the first failing call's error is the result. */
  function ParseCalls(calls: seq<Call>, env: Env): Result<seq<Primitive>, Error> {
    if calls == [] then Ok([])
    else
      var p :- ParseFunction(calls[0].kind, calls[0].args, env);
      var ps :- ParseCalls(calls[1..], env);
      Ok([p] + ps)
  }

  /** `getTransform(data)`: `null` for empty text or text naming no function, otherwise the
      concatenation of the functions' transforms, given as the list of its factors in order.
      The source parses each call as soon as its `)` is found, so a call's error comes before
      a missing `)` further on; parsing the split calls first and then reporting the missing
      `)` raises the same error. */
  function GetTransform(data: string, env: Env): (r: Result<Option<seq<Primitive>>, Error>)
    ensures data == [] ==> r == Ok(None)
    ensures r.Ok? && r.value.Some? ==> r.value.value != []
    ensures r.Ok? ==> !SplitCalls(data, 0, []).unclosed || data == []
  {
    if data == [] then Ok(None)
    else
      var split := SplitCalls(data, 0, []);
      var ps :- ParseCalls(split.calls, env);
      if split.unclosed then Err(IndexOutOfBounds)
      else Ok(if ps == [] then None else Some(ps))
  }

  /** The parsed calls line up with the calls one to one, and a failure is some call's. */
  lemma {:induction false} ParseCallsElementwise(calls: seq<Call>, env: Env)
    ensures var r := ParseCalls(calls, env);
            (r.Ok? ==> |r.value| == |calls| &&
                       forall j :: 0 <= j < |calls| ==> ParseFunction(calls[j].kind, calls[j].args, env) == Ok(r.value[j])) &&
            (r.Err? ==> exists j :: 0 <= j < |calls| && ParseFunction(calls[j].kind, calls[j].args, env) == Err(r.error))
  {
    if calls != [] {
      var first := ParseFunction(calls[0].kind, calls[0].args, env);
      if first.Ok? {
        ParseCallsElementwise(calls[1..], env);
        var rest := ParseCalls(calls[1..], env);
        if rest.Ok? {
          assert ParseCalls(calls, env) == Ok([first.value] + rest.value);
          ElementwiseCons(calls, env, first.value, rest.value);
        } else {
          assert ParseCalls(calls, env) == Err(rest.error);
          ElementwiseShift(calls, env, rest.error);
        }
      } else {
        assert ParseCalls(calls, env) == Err(first.error);
      }
    }
  }

  /** The inductive step of `ParseCallsElementwise` when every call parses. */
  lemma ElementwiseCons(calls: seq<Call>, env: Env, first: Primitive, rest: seq<Primitive>)
    requires calls != [] && ParseFunction(calls[0].kind, calls[0].args, env) == Ok(first)
    requires |rest| == |calls| - 1
    requires forall j :: 0 <= j < |calls[1..]| ==> ParseFunction(calls[1..][j].kind, calls[1..][j].args, env) == Ok(rest[j])
    ensures forall j :: 0 <= j < |calls| ==> ParseFunction(calls[j].kind, calls[j].args, env) == Ok(([first] + rest)[j])
  {
    var parse := (c: Call) => ParseFunction(c.kind, c.args, env);
    ConsPointwise(calls, parse, first, rest);
  }

  /** A list whose head maps to `first` and whose tail maps pointwise to `rest`
      maps pointwise to `[first] + rest`. */
  lemma ConsPointwise<A, P, E>(xs: seq<A>, f: A -> Result<P, E>, first: P, rest: seq<P>)
    requires xs != [] && f(xs[0]) == Ok(first) && |rest| == |xs| - 1
    requires forall j :: 0 <= j < |xs[1..]| ==> f(xs[1..][j]) == Ok(rest[j])
    ensures forall j :: 0 <= j < |xs| ==> f(xs[j]) == Ok(([first] + rest)[j])
  {
    forall j | 0 < j < |xs|
      ensures f(xs[j]) == Ok(([first] + rest)[j])
    {
      assert xs[j] == xs[1..][j - 1];
    }
  }

  /** The inductive step of `ParseCallsElementwise` when a later call fails. */
  lemma ElementwiseShift(calls: seq<Call>, env: Env, e: Error)
    requires calls != []
    requires exists j :: 0 <= j < |calls[1..]| && ParseFunction(calls[1..][j].kind, calls[1..][j].args, env) == Err(e)
    ensures exists j :: 0 <= j < |calls| && ParseFunction(calls[j].kind, calls[j].args, env) == Err(e)
  {
    var j :| 0 <= j < |calls[1..]| && ParseFunction(calls[1..][j].kind, calls[1..][j].args, env) == Err(e);
    assert calls[1..][j] == calls[j + 1];
  }

  /** Calls whose argument text holds no `)`. */
  predicate Closed(calls: seq<Call>) {
    forall j :: 0 <= j < |calls| ==> ')' !in calls[j].args
  }

  /** No argument text the scan extracts holds a `)`: it ends at the first one. This is why
      the per-function parser's attempt to drop a trailing `)` never has anything to drop. */
  lemma {:induction false} SplitCallsClosed(data: string, i: nat, acc: seq<Call>)
    requires Closed(acc)
    ensures Closed(SplitCalls(data, i, acc).calls)
    decreases |data| - i
  {
    if i < |data| {
      match Next(data, i)
      case Skip => SplitCallsClosed(data, i + 1, acc);
      case Unclosed =>
      case Found(c, resume) =>
        NextClosed(data, i);
        var acc' := acc + [c];
        assert Closed(acc') by {
          forall j | 0 <= j < |acc'| ensures ')' !in acc'[j].args {
            if j < |acc| { assert acc'[j] == acc[j]; }
          }
        }
        SplitCallsClosed(data, resume, acc');
    }
  }

  /** A call the scan finds holds no `)`: its arguments end at the first one. */
  lemma NextClosed(data: string, i: nat)
    requires i < |data| && Next(data, i).Found?
    ensures ')' !in Next(data, i).call.args
  {
    var k := FirstMatch(data, i, Kinds).value;
    var start := i + |Name(k)| + 1;
    var close := IndexOf(data, ')', start);
    var args := Next(data, i).call.args;
    assert args == data[start..close];
    forall j | 0 <= j < |args| ensures args[j] != ')' {
      assert args[j] == data[start + j];
    }
  }

  /** A text in which no function name starts anywhere holds no calls. */
  lemma {:induction false} NoFunctionNoCalls(data: string, i: nat, acc: seq<Call>)
    requires forall j, k :: i <= j < |data| ==> !StartsWithAt(data, Name(k), j)
    ensures SplitCalls(data, i, acc) == Split(acc, false)
    decreases |data| - i
  {
    if i < |data| {
      FirstMatchFound(data, i, Kinds);
      assert FirstMatch(data, i, Kinds).None?;
      assert Next(data, i) == Skip;
      NoFunctionNoCalls(data, i + 1, acc);
    }
  }

  /** A text that names no transform function denotes no transform at all (`null`). */
  lemma NoFunctionGivesNull(data: string, env: Env)
    requires forall j, k :: 0 <= j < |data| ==> !StartsWithAt(data, Name(k), j)
    ensures GetTransform(data, env) == Ok(None)
  {
    NoFunctionNoCalls(data, 0, []);
  }

  // ----------------------------------------------------- reference definition

  function CallText(c: Call): string {
    Name(c.kind) + "(" + c.args + ")"
  }

  /** The text of a list of calls written one after another. */
  function Render(calls: seq<Call>): string {
    if calls == [] then "" else CallText(calls[0]) + Render(calls[1..])
  }

  /** The call `c` is written at position `i`: its name, one character, its arguments
      (which hold no `)`) and its `)`. */
  predicate WrittenAt(data: string, i: nat, c: Call) {
    var start := i + |Name(c.kind)| + 1;
    var close := start + |c.args|;
    close < |data| && StartsWithAt(data, Name(c.kind), i) && data[start..close] == c.args &&
    data[close] == ')' && ')' !in c.args
  }

  /** A call's text at position `i` is that call written there, and what follows it
      starts right after. */
  lemma CallTextAt(data: string, i: nat, c: Call, rest: string)
    requires i <= |data| && data[i..] == CallText(c) + rest && ')' !in c.args
    ensures WrittenAt(data, i, c)
    ensures i + |CallText(c)| <= |data| && data[i + |CallText(c)|..] == rest
  {
    var name := Name(c.kind);
    var n := |name|;
    var start := i + n + 1;
    var close := start + |c.args|;
    var next := close + 1;
    assert data[i..] == name + "(" + c.args + ")" + rest;
    forall j | 0 <= j < n ensures data[i + j] == name[j] {
      assert data[i + j] == data[i..][j];
    }
    assert data[i..i + n] == name;
    forall j | 0 <= j < |c.args| ensures data[start + j] == c.args[j] {
      assert data[start + j] == data[i..][n + 1 + j];
    }
    assert data[start..close] == c.args;
    assert data[close] == data[i..][close - i];
    forall j | 0 <= j < |rest| ensures data[next + j] == rest[j] {
      assert data[next + j] == data[i..][next - i + j];
    }
  }

  /** The kind whose name starts at position `i` is the one the scan finds there. */
  lemma NameFound(data: string, i: nat, k: MatrixKind)
    requires StartsWithAt(data, Name(k), i)
    ensures FirstMatch(data, i, Kinds) == Some(k)
  {
    assert k in Kinds;
    FirstMatchFound(data, i, Kinds);
    NamesPrefixFree(data, i, FirstMatch(data, i, Kinds).value, k);
  }

  /** The first `)` from `start` is at `close` when none lies in between. */
  lemma FirstCloseAt(data: string, start: nat, close: nat)
    requires start <= close < |data| && data[close] == ')'
    requires forall j :: start <= j < close ==> data[j] != ')'
    ensures IndexOf(data, ')', start) == close
    decreases close - start
  {
    if start < close {
      FirstCloseAt(data, start + 1, close);
    }
  }

  /** A call written at position `i` is found there, and the scan resumes right after it. */
  lemma CallAt(data: string, i: nat, c: Call)
    requires WrittenAt(data, i, c)
    ensures i < |data| && Next(data, i) == Found(c, i + |CallText(c)|)
  {
    var name := Name(c.kind);
    var start := i + |name| + 1;
    var close := start + |c.args|;
    NameFound(data, i, c.kind);
    forall j | start <= j < close ensures data[j] != ')' {
      assert data[j] == data[start..close][j - start];
    }
    FirstCloseAt(data, start, close);
    assert |CallText(c)| == |name| + |c.args| + 2;
  }

  /** One step of the scan at a position where it finds a call. */
  lemma SplitStep(data: string, i: nat, acc: seq<Call>, c: Call, resume: nat)
    requires i < |data| && Next(data, i) == Found(c, resume)
    ensures SplitCalls(data, i, acc) == SplitCalls(data, resume, acc + [c])
  {
  }

  /** Scanning rendered calls without `)` in their arguments gives back exactly those
      calls. */
  lemma {:induction false} SplitRenderedFrom(data: string, i: nat, calls: seq<Call>, acc: seq<Call>)
    requires i <= |data| && data[i..] == Render(calls) && Closed(calls)
    ensures SplitCalls(data, i, acc) == Split(acc + calls, false)
    decreases |calls|
  {
    if calls == [] {
      assert i == |data|;
    } else {
      var c := calls[0];
      var next := i + |CallText(c)|;
      ClosedParts(calls);
      CallTextAt(data, i, c, Render(calls[1..]));
      CallAt(data, i, c);
      SplitStep(data, i, acc, c, next);
      SplitRenderedFrom(data, next, calls[1..], acc + [c]);
      AppendFirst(acc, calls);
    }
  }

  lemma AppendFirst<T>(acc: seq<T>, s: seq<T>)
    requires s != []
    ensures acc + [s[0]] + s[1..] == acc + s
  {
    assert s == [s[0]] + s[1..];
  }

  /** Scanning rendered calls gives back exactly those calls. */
  lemma SplitRendered(calls: seq<Call>)
    requires Closed(calls)
    ensures SplitCalls(Render(calls), 0, []) == Split(calls, false)
  {
    SplitRenderedFrom(Render(calls), 0, calls, []);
    assert [] + calls == calls;
  }

  lemma ClosedParts(calls: seq<Call>)
    requires calls != [] && Closed(calls)
    ensures ')' !in calls[0].args && Closed(calls[1..])
  {
    assert forall j :: 0 <= j < |calls[1..]| ==> calls[1..][j] == calls[j + 1];
  }

  /** A transform list written as `name(args)name(args)...` with no `)` inside the
      arguments denotes the concatenation of its calls' transforms, in order, or the
      first failing call's error. */
  lemma RenderedTransform(calls: seq<Call>, env: Env)
    requires calls != [] && Closed(calls)
    ensures GetTransform(Render(calls), env) ==
              match ParseCalls(calls, env)
              case Ok(ps) => Ok(Some(ps))
              case Err(e) => Err(e)
  {
    var data := Render(calls);
    SplitRendered(calls);
    assert |data| > 0 by { assert |CallText(calls[0])| > 0; }
    ParseCallsElementwise(calls, env);
  }

  /** A function name with no `)` after it fails the whole attribute once the calls before
      it have parsed. */
  lemma UnclosedFails(data: string, env: Env)
    requires data != [] && SplitCalls(data, 0, []).unclosed
    requires ParseCalls(SplitCalls(data, 0, []).calls, env).Ok?
    ensures GetTransform(data, env) == Err(IndexOutOfBounds)
  {
  }
}

=== FILE: value_types.dfy ===
/** The enumeration-like attribute types (fill-rule, stroke-linejoin, stroke-type)
    and the paint type with its `currentColor` sentinel. */
module ValueTypes {
  import opened Wrappers
  import opened Failures
  import opened Text
  import opened AttributeValues

  // ---------------------------------------------------------------- fill-rule

  datatype FillRule = EvenOdd | NonZero

  const FillRuleDefault: FillRule := EvenOdd

  /** An entry of the fill-rule name table: the attribute text and the rule it names. */
  datatype FillRuleMapping = FillRuleMapping(name: string, rule: FillRule)

  const FillRuleMappings: seq<FillRuleMapping> :=
    [FillRuleMapping("nonzero", NonZero), FillRuleMapping("evenodd", EvenOdd)]

  /** The rule of the first mapping whose name equals the text exactly, or the default. */
  function LookupFillRule(text: string, mappings: seq<FillRuleMapping>): (r: FillRule)
    ensures (exists i :: 0 <= i < |mappings| && mappings[i].name == text) ||
            r == FillRuleDefault
    ensures forall i :: 0 <= i < |mappings| && mappings[i].name == text ==>
                          (exists j :: 0 <= j <= i && mappings[j].name == text && r == mappings[j].rule)
  {
    if mappings == [] then FillRuleDefault
    else if mappings[0].name == text then mappings[0].rule
    else LookupFillRule(text, mappings[1..])
  }

  /** `getValueAndUnit` of both fill-rule types: never fails and never answers `null`. */
  function FillRuleValueAndUnit(text: string): (r: Parsed<FillRule, NoUnit>)
    ensures r.Parsed? && r.unit == None
  {
    Parsed(LookupFillRule(text, FillRuleMappings), None)
  }

  /** Every name of the table parses to its rule; any other text, including a
      differently cased name, falls back to `EVEN_ODD`. */
  lemma FillRuleNames(text: string)
    ensures text == "nonzero" ==> FillRuleValueAndUnit(text).value == NonZero
    ensures text == "evenodd" ==> FillRuleValueAndUnit(text).value == EvenOdd
    ensures text != "nonzero" ==> FillRuleValueAndUnit(text).value == EvenOdd
  {
  }

  /** Consuming fill-rule text never raises an exception. */
  lemma FillRuleNeverFails(a: AttrValue<FillRule, NoUnit>, text: string)
    ensures ConsumeText(a, text, FillRuleValueAndUnit).error == None
  {
  }

  // ---------------------------------------------------------- stroke-linejoin

  datatype StrokeLineJoin = Miter | Bevel | Round

  const StrokeLineJoinDefault: StrokeLineJoin := Miter

  /** The Java constant name. */
  function JoinName(j: StrokeLineJoin): string {
    match j
    case Miter => "MITER"
    case Bevel => "BEVEL"
    case Round => "ROUND"
  }

  /** `StrokeLineJoin.valueOf`: the constant of exactly this name, if any. */
  function JoinValueOf(name: string): (r: Option<StrokeLineJoin>)
    ensures forall j :: JoinName(j) == name ==> r == Some(j)
    ensures r.Some? ==> JoinName(r.value) == name
  {
    if name == "MITER" then Some(Miter)
    else if name == "BEVEL" then Some(Bevel)
    else if name == "ROUND" then Some(Round)
    else None
  }

  /** `getValueAndUnit` of stroke-linejoin: the upper-cased text must name a constant. */
  function JoinValueAndUnit(text: string): (r: Parsed<StrokeLineJoin, NoUnit>)
    ensures forall j :: JoinName(j) == Upper(text) ==> r == Parsed(j, None)
    ensures r.Parsed? ==> JoinName(r.value) == Upper(text) && r.unit == None
    ensures r.ParseFailed? ==> r.error == NoEnumConstant(Upper(text))
    ensures !r.NoData?
  {
    match JoinValueOf(Upper(text))
    case Some(j) => Parsed(j, None)
    case None => ParseFailed(NoEnumConstant(Upper(text)))
  }

  /** Matching ignores the case of the text: the lower-case name of every constant,
      and any text with the same upper case, gives that constant. */
  lemma JoinMatchIgnoresCase(j: StrokeLineJoin, text: string)
    requires Upper(text) == JoinName(j)
    ensures JoinValueAndUnit(text) == Parsed(j, None)
    ensures JoinValueAndUnit(Lower(JoinName(j))) == Parsed(j, None)
  {
    var n := JoinName(j);
    assert Upper(Lower(n)) == n;
  }

  // -------------------------------------------------------------- stroke-type

  datatype StrokeType = Inside | Outside | Centered

  /** The default of the constructor (the class comment names INSIDE; the code uses CENTERED). */
  const StrokeTypeDefault: StrokeType := Centered

  function StrokeTypeName(t: StrokeType): string {
    match t
    case Inside => "INSIDE"
    case Outside => "OUTSIDE"
    case Centered => "CENTERED"
  }

  /** `StrokeType.valueOf`. */
  function StrokeTypeValueOf(name: string): (r: Option<StrokeType>)
    ensures forall t :: StrokeTypeName(t) == name ==> r == Some(t)
    ensures r.Some? ==> StrokeTypeName(r.value) == name
  {
    if name == "INSIDE" then Some(Inside)
    else if name == "OUTSIDE" then Some(Outside)
    else if name == "CENTERED" then Some(Centered)
    else None
  }

  /** `getValueAndUnit` of stroke-type: the upper-cased text must name a constant. */
  function StrokeTypeValueAndUnit(text: string): (r: Parsed<StrokeType, NoUnit>)
    ensures forall t :: StrokeTypeName(t) == Upper(text) ==> r == Parsed(t, None)
    ensures r.Parsed? ==> StrokeTypeName(r.value) == Upper(text) && r.unit == None
    ensures r.ParseFailed? ==> r.error == NoEnumConstant(Upper(text))
    ensures !r.NoData?
  {
    match StrokeTypeValueOf(Upper(text))
    case Some(t) => Parsed(t, None)
    case None => ParseFailed(NoEnumConstant(Upper(text)))
  }

  /** The lower-case name of every stroke type parses to that type, and a text naming
      no type is rejected. */
  lemma StrokeTypeNames(t: StrokeType, text: string)
    ensures StrokeTypeValueAndUnit(Lower(StrokeTypeName(t))) == Parsed(t, None)
    ensures (forall u :: StrokeTypeName(u) != Upper(text)) ==> StrokeTypeValueAndUnit(text).ParseFailed?
  {
    var n := StrokeTypeName(t);
    assert Upper(Lower(n)) == n;
  }

  // -------------------------------------------------------------------- paint

  /** A colour with components and opacity in [0, 1]. */
  datatype Color = Color(red: real, green: real, blue: real, opacity: real)

  const Transparent: Color := Color(0.0, 0.0, 0.0, 0.0)

  const CurrentColorIndicator: string := "currentColor"

  /** A paint attribute: the attribute state plus the `isCurrentColor` field that only
      the paint parser writes. */
  datatype PaintAttr = PaintAttr(attr: AttrValue<Color, NoUnit>, isCurrentColor: bool)

  /** A new paint: TRANSPARENT, not the current colour. */
  function FreshPaint(): (p: PaintAttr)
    ensures p.attr.value == Transparent && p.attr.unit == None && !p.isCurrentColor
  {
    PaintAttr(Fresh(Transparent), false)
  }

  /** `getValueAndUnit` of a paint: `currentColor` answers `null`; any other text is a colour. */
  function PaintValueAndUnit(text: string, parseColor: string -> Option<Color>): Parsed<Color, NoUnit> {
    if text == CurrentColorIndicator then NoData
    else match parseColor(text)
      case Some(c) => Parsed(c, None)
      case None => ParseFailed(InvalidColor(text))
  }

  /** `consumeText` on a paint. The flag is recomputed whenever the parser runs, that is
      for every text except `inherit` and `none`, which leave it as it was. */
  function ConsumePaint(p: PaintAttr, text: string, parseColor: string -> Option<Color>): (r: (PaintAttr, Option<Error>))
    ensures text != InheritIndicator && text != NoneIndicator ==>
              (r.0.isCurrentColor <==> text == CurrentColorIndicator)
    ensures text == InheritIndicator || text == NoneIndicator ==> r.0.isCurrentColor == p.isCurrentColor
    ensures text == CurrentColorIndicator ==> r.0.attr.value == p.attr.value && r.1 == None
    ensures text != CurrentColorIndicator && text != InheritIndicator && text != NoneIndicator ==>
              match parseColor(text)
              case Some(c) => r.0.attr.value == c && r.0.attr.unit == None && r.1 == None
              case None => r.1 == Some(InvalidColor(text))
  {
    var c := ConsumeText(p.attr, text, t => PaintValueAndUnit(t, parseColor));
    var parserRan := text != InheritIndicator && text != NoneIndicator;
    (PaintAttr(c.state, if parserRan then text == CurrentColorIndicator else p.isCurrentColor), c.error)
  }

  /** The flag is not sticky: `currentColor` followed by a colour clears it. */
  lemma CurrentColorNotSticky(p: PaintAttr, text: string, parseColor: string -> Option<Color>)
    requires text != CurrentColorIndicator && text != InheritIndicator && text != NoneIndicator
    requires parseColor(text).Some?
    ensures var q := ConsumePaint(ConsumePaint(p, CurrentColorIndicator, parseColor).0, text, parseColor).0;
            !q.isCurrentColor && q.attr.value == parseColor(text).value
  {
  }
}

=== FILE: wrappers.dfy ===
/** Failure-compatible wrappers used throughout the model: `Option` stands for a
    Java reference that may be null, `Result` for a call that may throw. */
module Wrappers {

  datatype Option<+T> = None | Some(value: T) {

    predicate IsFailure() {
      None?
    }

    function PropagateFailure<U>(): Option<U>
      requires None?
    {
      None
    }

    function Extract(): T
      requires Some?
    {
      value
    }

    function GetOr(default: T): T {
      match this
      case Some(v) => v
      case None => default
    }
  }

  datatype Result<+T, +E> = Ok(value: T) | Err(error: E) {

    predicate IsFailure() {
      Err?
    }

    function PropagateFailure<U>(): Result<U, E>
      requires Err?
    {
      Err(error)
    }

    function Extract(): T
      requires Ok?
    {
      value
    }
  }
}
